=== FILE: README.md ===
# Shopify install handshake, modelled in Dafny

This project models the OAuth install handshake of the Express server in
`server.js`. The handshake has three routes and a token store:

- **Initiation.** `GET /auth/shopify` and `POST /auth/shopify/start` pick a
  shop domain and draw a random `state`. They record the pair as the
  session's pending handshake and redirect to the shop's
  `/admin/oauth/authorize` page. The redirect carries `client_id`, `scope`,
  `redirect_uri` and `state`, form-urlencoded by `URLSearchParams`.
- **`verifyHmac`.** It drops `hmac` and `signature` from the query and sorts
  the remaining keys. It joins `key=value` with `&` and compares the
  keyed digest of that message with the supplied `hmac`, using
  `crypto.timingSafeEqual` on the UTF-8 bytes.
- **The callback.** Three checks run in a fixed order: the parameters are
  present, the session's pending pair matches, and the HMAC verifies. Only
  then is the code exchanged for a token. On success the route stores the
  token, replaces the pending pair with the connected shop and redirects to
  the dashboard.
- **Token store.** `storeToken` is an upsert keyed by shop. `getToken` looks
  a shop up. `/api/shops` lists shops with their install times.

Each route is a pure function. It maps the configuration, the session, the
token store and the request to a response and the new session and store.
Everything the server gets from outside becomes a parameter:

- `state` is the random value drawn for a handshake. It is constrained to
  what `randomBytes(16).toString('hex')` can produce.
- `mac` is HMAC-SHA256 with hex output, left uninterpreted.
- `reply` is what the token endpoint returned.
- `now` is the database clock.

The JavaScript behaviour the routes depend on is written out:

- truthiness of possibly missing strings;
- `String.prototype.trim` and its white-space set;
- the default `Array.prototype.sort` order;
- `split` and `join`;
- UTF-8 encoding;
- the two percent-encodings (`URLSearchParams` and `encodeURIComponent`).

Modules:

| file | module | what it holds |
|---|---|---|
| `options.dfy` | `Options` | the optional-value type |
| `jsstring.dfy` | `JsString` | trim, truthiness, sort order, join and split |
| `utf8.dfy` | `Utf8` | UTF-8 encoding and decoding |
| `urlencode.dfy` | `UrlEncoding` | percent-encoding, `URLSearchParams` serialisation and parsing |
| `config.dfy` | `Config` | the environment settings |
| `tokenstore.dfy` | `TokenStore` | the `tokens` table |
| `hmac.dfy` | `Hmac` | the canonical message and `verifyHmac` |
| `oauth.dfy` | `OAuth` | the three routes |
| `handshake_properties.dfy` | `HandshakeProperties` | properties of sequences of route calls |

## Model

| member | source | states |
|---|---|---|
| Config.LoadConfig | server.js:25-29 | HOST, APP_URL and SHOPIFY_SCOPES are used exactly when they are set and non-empty; otherwise HOST is `http://localhost:3000`, APP_URL is HOST, and the scopes are `read_products,read_orders`; SHOPIFY_API_KEY and SHOPIFY_API_SECRET are taken from the environment when present and are the empty string when unset; host, callback base and scopes are never empty |
| TokenStore.StoreToken | server.js:64-73 | the upsert adds the shop to the table and sets its token and install time; the scope is stored as given, and an empty scope becomes NULL; every other shop's row is unchanged |
| TokenStore.GetToken | server.js:75-82 | a lookup yields a token exactly when the shop has a row, and then it is that row's token |
| TokenStore.ListShops | server.js:218-223 | the listing holds exactly one (shop, install time) entry per stored row |
| TokenStore.GetAfterStore | server.js:64-82 | a lookup after a write for the shop returns the written token |
| TokenStore.StoreLeavesOthers | server.js:64-82 | writing one shop's token leaves every other shop's lookup unchanged |
| TokenStore.StoreIdempotent | server.js:64-73 | writing the same row twice equals writing it once |
| TokenStore.LastWriteWins | server.js:66-67 | the ON CONFLICT upsert: a second write for a shop replaces the first entirely |
| TokenStore.ListingHidesTokens | server.js:218-223 | the listing depends only on shops and install times, never on tokens or scopes |
| JsString.TrimStart | server.js:86 | removes exactly the leading white space: what it drops is all white space and what it keeps is a suffix starting with a non-space |
| JsString.TrimEnd | server.js:86 | removes exactly the trailing white space, symmetrically |
| JsString.Trim | server.js:86 | the result is a contiguous slice of the input, all of whose cut-off ends are white space, and it neither starts nor ends with white space |
| JsString.TrimIdempotent | server.js:130 | trimming twice equals trimming once |
| JsString.TrimFixed | server.js:130 | a string with no white space at either end is its own trim |
| JsString.AllTrimmableTrimsToEmpty | server.js:130-131 | a string made only of white space trims to the empty string |
| JsString.EmptyTrimAllTrimmable | server.js:130-131 | conversely, a string that trims to empty is made only of white space |
| JsString.OrEmpty | server.js:86 | `(v \|\| '')`: the value when truthy, otherwise the empty string |
| JsString.BelowReflexive | server.js:159 | the sort order used for keys is reflexive |
| JsString.BelowTotal | server.js:159 | any two keys are comparable |
| JsString.BelowAntisymmetric | server.js:159 | two keys each at or below the other are equal |
| JsString.BelowTransitive | server.js:159 | the order is transitive |
| JsString.Insert | server.js:159 | inserting into a sorted list keeps it sorted and adds exactly one occurrence of the element |
| JsString.SortStrings | server.js:158-159 | `Object.keys(map).sort()`: the result is sorted and a permutation of the input |
| JsString.SortedUnique | server.js:159 | two sorted permutations of the same keys are identical, so the sort result is determined by its contents |
| JsString.SortPermutationInvariant | server.js:158-159 | sorting any reordering of the keys gives the same list |
| JsString.Join | server.js:161 | joining a single piece yields that piece |
| JsString.SplitNoSeparator | server.js:161 | a string without the separator splits into itself |
| JsString.SplitAtSeparator | server.js:161 | splitting at the first separator yields the text before it followed by the split of the rest |
| JsString.SplitJoin | server.js:161 | split inverts join when no piece contains the separator |
| JsString.JoinInjective | server.js:161 | with separator-free pieces, equal joins come from equal piece lists |
| JsString.JoinSameShape | server.js:161 | two different lists of pieces with the same lengths, piece by piece, join to different strings, whatever the pieces contain |
| Utf8.EncodeChar | server.js:169 | each character becomes 1 to 4 bytes; a single byte exactly for ASCII; every later byte is a continuation byte |
| Utf8.Encode | server.js:169 | `Buffer.from(s, 'utf8')`: the characters' encodings in order, never shorter than the string |
| Utf8.EncodeCharShape | server.js:169 | the lead byte announces the sequence length, and the bytes carry exactly the character's code point |
| Utf8.DecodeEncodeChar | server.js:169 | decoding a character's bytes, whatever follows, yields the character and its byte count |
| Utf8.DecodeEncode | server.js:169 | decoding inverts encoding |
| Utf8.EncodeInjective | server.js:169 | distinct strings have distinct byte encodings, so comparing bytes compares the strings |
| UrlEncoding.EncodeBytes | server.js:99-105 | percent-encoded output never contains `&` or `=` |
| UrlEncoding.PercentEncode | server.js:99-105 | an encoded key or value never contains `&` or `=`, so it cannot break the query's structure |
| UrlEncoding.DecodeEncodeBytes | server.js:99-105 | percent-decoding inverts percent-encoding on bytes, in both the form and the URI-component flavour |
| UrlEncoding.PercentRoundTrip | server.js:99-105 | percent-decoding inverts percent-encoding on strings |
| UrlEncoding.EncodedPairs | server.js:99-105 | every serialised pair is the encoded key, `=`, and the encoded value |
| UrlEncoding.CutAtFirst | server.js:105 | splitting at the first `=` or `&` recovers the text before and after it |
| UrlEncoding.ParsePairEncoded | server.js:105 | an encoded pair reads back as the original key and value |
| UrlEncoding.ParseEncodedPairs | server.js:99-105 | a list of encoded pairs reads back as the original pairs |
| UrlEncoding.SerializeParams | server.js:99-105 | `params.toString()` is lossless: parsing it recovers every parameter, in order, with its exact value; no parameters give the empty string |
| UrlEncoding.ParseUriPair | server.js:210 | a plain-domain key with an `encodeURIComponent` value contains no `&` and reads back as that key and value |
| UrlEncoding.UriComponentKeepsDomain | server.js:210 | `encodeURIComponent` leaves a plain domain name (letters, digits, `-`, `.`) unchanged |
| Hmac.Keys | server.js:158 | the keys of a query, one per entry in order |
| Hmac.Lookup | server.js:151 | a key has a value exactly when it is in the query, and then the value is that entry's value |
| Hmac.Strip | server.js:154-156 | the copy without `hmac` and `signature` holds exactly the other entries |
| Hmac.Pieces | server.js:160 | each piece is `key=value` for the corresponding key |
| Hmac.SignedKeys | server.js:154-159 | the keys that are signed are the remaining keys, sorted, each exactly once |
| Hmac.CanonicalMessage | server.js:154-161 | the signed message is empty exactly when no key is left after dropping `hmac` and `signature` |
| Hmac.CanonicalMessageSplits | server.js:154-161 | with `&`-free keys and values, splitting the message at `&` gives back exactly the sorted `key=value` pieces |
| Hmac.TimingSafeEqual | server.js:168-172 | `timingSafeEqual`: throws (None) exactly when the lengths differ, otherwise true exactly when the byte strings are equal |
| Hmac.Differs | server.js:169 | the byte-wise comparison finds a difference exactly when the buffers are not equal |
| Hmac.VerifyHmac | server.js:150-173 | the check passes exactly when `hmac` is present and non-empty and equals the digest of the canonical message under the secret |
| Hmac.LengthMismatchRejected | server.js:168-172 | a supplied `hmac` whose UTF-8 length differs from the digest's is rejected, by the exception path |
| Hmac.KeysPermutation | server.js:154-158 | reordering a query's entries reorders its keys and nothing more |
| Hmac.LookupStrip | server.js:154-156 | after stripping, `hmac` and `signature` are gone and every other lookup is unchanged |
| Hmac.LookupPermutation | server.js:151 | reordering a query does not change any lookup |
| Hmac.CanonicalOrderIndependent | server.js:154-161 | the signed message is the same however the query's entries are ordered |
| Hmac.JoinDistinguishes | server.js:161 | different lists of `&`-free pieces join to different messages |
| Hmac.PiecesAmpersandFree | server.js:160 | when no key or value contains `&`, neither does any signed piece |
| Hmac.TamperChangesMessage | server.js:154-161 | when no key or value of either query contains `&` and both have the same signed keys, changing the value of one signed key changes the message |
| Hmac.TamperedQueryRejected | server.js:150-173 | when the digest tells these two messages apart, the original query verifies, both queries carry the same `hmac`, no key or value of either contains `&`, and both have the same signed keys, a query with one signed value altered fails verification against the original `hmac` |
| Hmac.SameLengthTamper | server.js:154-161 | changing one signed value to a different one of the same length, all else equal, changes the message, even when keys and values contain `&` or `=` |
| Hmac.SameLengthTamperRejected | server.js:150-173 | when the digest tells these two messages apart, such a same-length alteration fails verification against the original `hmac` |
| Hmac.StripUnsigned | server.js:154-156 | a query without `hmac` or `signature` is left as it is by stripping |
| Hmac.TwoEntryMessage | server.js:154-161 | the message of two unsigned entries in sorted order is `a=x&b=y` |
| Hmac.OneEntryMessage | server.js:154-161 | the message of one unsigned entry is `a=x` |
| Hmac.CanonicalMessageAmbiguous | server.js:154-161 | without the `&`-free premise the message does not identify the query: the value `x&b=y` under `a` signs the same text as the two entries `a=x` and `b=y` |
| OAuth.StripTrailingSlash | server.js:98 | `replace(/\/$/, '')` drops exactly one trailing slash when there is one, and changes nothing otherwise |
| OAuth.CallbackUri | server.js:98 | the callback address ends in `/auth/shopify/callback`; what comes before it is the base less its last character when the base ends in `/`, and the whole base otherwise |
| OAuth.CallbackUriIgnoresTrailingSlash | server.js:98 | a base with or without one trailing slash gives the same callback address |
| OAuth.TokenRequest | server.js:190-194 | the exchange posts the configured key and secret and the callback's code, over `https`; when the shop contains no `/`, the text between `https://` and the first `/` is the shop, followed by `/admin/oauth/access_token` |
| OAuth.DashboardUrl | server.js:210 | the success redirect is `/dashboard.html?` followed by a query that parses back to exactly `shop` with the shop's name and `connected=1` |
| OAuth.BeginHandshake | server.js:90-106 | the session gets the new state and the shop as its pending pair; the reply is a 302 to the shop's authorize page, whose query parses back to exactly client id, scopes, callback address and state |
| OAuth.InitiateGet | server.js:84-127 | uses the trimmed query shop, or else the session's connected shop, with the APP_URL callback; with neither, shows the form and leaves the session alone |
| OAuth.InitiatePost | server.js:129-147 | a blank shop is a 400 `Missing shop domain` with the session unchanged; otherwise the handshake starts for the trimmed shop with the HOST callback |
| OAuth.Callback | server.js:175-215 | each failed check gives its own 400 and exchanges nothing; the code is exchanged exactly when all three checks pass; an exchange error or a missing token gives its 500; only a granted token is stored, with the reply's scope or the configured one, and only then is the pending pair replaced by the connected shop and the browser sent to the dashboard |
| HandshakeProperties.MissingParamsRejectedFirst | server.js:176-177 | a callback missing `shop`, `code` or `state` gets the same 400 whatever the session, store, secret or token endpoint |
| HandshakeProperties.StateCheckedBeforeHmac | server.js:180-187 | with a mismatched session the state error is returned whatever the HMAC would say |
| HandshakeProperties.StoreWrittenOnlyAfterChecks | server.js:176-201 | a changed store implies all three checks passed, the code was exchanged, and the reply carried a token |
| HandshakeProperties.StoredScope | server.js:201 | the stored row holds the granted token and the reply's scope, or else the configured scopes, never NULL |
| HandshakeProperties.BlankShopRefused | server.js:130-131 | a shop field made only of white space is refused with a 400 |
| HandshakeProperties.NewHandshakeInvalidatesOldState | server.js:134-136 | after a new initiation, a callback with any other state is a 400 that stores nothing and exchanges nothing |
| HandshakeProperties.StaleStateRejected | server.js:84-147 | after two handshakes started in a row by either initiation route, a callback carrying the first state is refused as a state mismatch (for a callback that starts after the second initiation has replied) |
| HandshakeProperties.TwoPostsStaleState | server.js:129-147 | after two POST initiations, the second of which starts a handshake, a callback carrying the first state is refused as a state mismatch, whether or not the first was refused |
| HandshakeProperties.ReplayRejected | server.js:203-206 | after a successful callback, presenting it again is refused as a state mismatch (for a second callback that starts after the first has replied) |
| HandshakeProperties.RetryAfterFailedExchange | server.js:211-214 | a failed exchange keeps the pending pair, so the same callback can still succeed |
| HandshakeProperties.HandshakeCompletes | server.js:129-215 | initiation, a signed callback and a granted token: the shop's token can be looked up, the shop is listed, the session shows it connected with no pending pair, and the browser goes to the dashboard |
| HandshakeProperties.StartedThenAccepted | server.js:180-187 | a signed callback carrying the pending pair of a started handshake passes all three checks |
| HandshakeProperties.AcceptedCallbackConnects | server.js:189-210 | an accepted callback with a granted token stores it and connects the shop |
| HandshakeProperties.ForgedSignatureRejected | server.js:187 | an `hmac` computed under a different secret, with a different digest, is refused and stores nothing |
| HandshakeProperties.CallbackOrderIndependent | server.js:175-215 | the outcome of a callback does not depend on the order of its query parameters |
| HandshakeProperties.DashboardUrlForDomain | server.js:210 | for a plain domain the dashboard address carries the shop name unescaped |

## Behaviour worth knowing

- **The pending handshake is cleared only on success.** `server.js:203-206`
  removes it after the token is stored. The failure returns at
  `server.js:177`, `183`, `187`, `198` and `213` leave it in place, so the
  same callback can be presented again (`RetryAfterFailedExchange`).
- **The state is compared with `!==`** (`server.js:182`). That comparison
  is not constant time. Only the HMAC comparison uses `timingSafeEqual`
  (`server.js:168-172`).
- **The success redirect goes to `/dashboard.html?shop=…&connected=1`**
  (`server.js:210`).
- **The token write does not block the reply.** `storeToken` reports
  database errors only to the log (`server.js:69-71`), and the callback
  redirects without waiting for it (`server.js:201`). The model's store is
  the table as it is after a successful write.
- **Keys are sorted with the default `sort()`** (`server.js:159`), which
  compares UTF-16 code units, not bytes. The model compares characters.
- **The canonical message joins raw values.** `server.js:158-161` writes
  each `key=value` and joins them with `&`, without escaping `&`, `%` or
  `=` in keys or values. `CanonicalMessageAmbiguous` exhibits two
  different queries with the same signed message. Tamper resistance is
  therefore proved in two forms: for any change of one signed value when
  keys and values are free of `&` (`TamperedQueryRejected`), and for a
  change to a value of the same length whatever the characters
  (`SameLengthTamperRejected`).

## Left out

- Express plumbing is not modelled: routing, body parsing, static files, and the session middleware and its cookie. The session is taken to be always present, so the `req.session &&` guards always hold.
- SQLite I/O, its errors and the `datetime('now')` clock are not modelled. The clock is the parameter `now`. A failed write is logged and otherwise ignored in the source.
- The network call to the token endpoint and its JSON parsing are not modelled. Their outcome is the parameter `reply`. It is `Threw` for a network failure, an unparsable body, or a body whose fields cannot be read. Otherwise it is the `access_token` and `scope` fields of the body.
- `crypto.createHmac` (SHA-256, hex) is not modelled. It is the uninterpreted parameter `mac`.
- `crypto.randomBytes` is not modelled. It is the parameter `state`, constrained to 32 lowercase hex digits.
- Query values and request-body fields that Express parses into something other than a string are not modelled: a repeated key, `a[b]=c` or `shop[]=` in a query or form body, and a number, array or object in a JSON body (`bodyParser.json()`, server.js:22). Every value is a string, and a repeated key is not representable. For a non-string `shop` in the POST body, `.trim()` throws at server.js:130 and the server answers 500; `InitiatePost` has no such outcome.
- The percent-encoding that `res.redirect` applies before it sets the `Location` header is not modelled. `Redirect.location` is the argument passed to `res.redirect` (server.js:106, 146, 210). The two differ for a shop name with a space or a non-ASCII character.
- Concurrent requests are not modelled. The model is sequential: each request reads the session and store left by the previous request's reply. The session middleware loads the session when a request arrives and saves it when the response ends, so two requests that overlap see stale copies. A second identical callback that arrives while the first waits for the exchange (server.js:190-195) still finds the pending pair, passes the check at server.js:182 and exchanges the code again. A callback that finishes after a newer initiation deletes that initiation's pending pair from its stale copy (server.js:204-205). `ReplayRejected` and `StaleStateRejected` hold only for a request that starts after the earlier one has replied.
- Fields of the token reply that are not strings are not modelled.
- HTML of the connect form is not modelled. It is the single response `ConnectForm`.
- Log output is not modelled.
- Lone UTF-16 surrogates are not modelled. Strings are sequences of Unicode scalar values.
- JsString.SortStrings: orders by code point, not by UTF-16 code unit. The two orders differ only for characters above U+FFFF compared with U+E000 to U+FFFF.
- OAuth.TokenRequest: URL parsing of the exchange address is not modelled. The contract speaks of its text only. A shop without `/` that contains `@`, `?`, `#` or `\` makes a URL parser read a different host or path than the text suggests: for `a.myshopify.com@evil.example` the request, with `client_secret` in its body, goes to `evil.example`.
- HandshakeProperties.HandshakeCompletes: states the outcome only for the POST initiation route. The GET route differs only in the callback base it uses.
- `SESSION_SECRET`, `DB_FILE` and `PORT` are not modelled. They configure the session middleware, the database file and the listener.
- The products, orders and metrics routes of `server.js` (`/api/shop/:shop/products`, `/orders` and `/metrics`, server.js:226-297) are not part of this model. They read the stored token through `getToken` (server.js:229, 247, 265), which is modelled.
- `api.js` and `dashboard-real-data.js` are browser scripts and are not part of this model. `api.js` polls a remote `/api/status` (api.js:5). `dashboard-real-data.js` requests `/api/shopify/*` routes that `server.js` does not define (dashboard-real-data.js:25-29) and generates its insights locally (dashboard-real-data.js:69-70). Neither calls `getToken`.

=== FILE: config.dfy ===
/** The settings read from the environment at start-up. */
module Config {
  /** The environment settings the handshake uses. */
  datatype Config = Config(
    apiKey: string,     // SHOPIFY_API_KEY
    apiSecret: string,  // SHOPIFY_API_SECRET
    host: string,       // HOST
    appUrl: string,     // APP_URL
    scopes: string)     // SHOPIFY_SCOPES

  const DefaultHost: string := "http://localhost:3000"
  const DefaultScopes: string := "read_products,read_orders"

  /** `process.env[name] || fallback`: an unset or empty variable yields
      the fallback. */
  function EnvOr(env: map<string, string>, name: string, fallback: string): string {
    if name in env && env[name] != "" then env[name] else fallback
  }

  /** The configuration the server computes from its environment. The API
      key and secret default to the empty string (only a warning is
      printed), HOST to the local address, APP_URL to HOST, and the scopes
      to product and order read access. */
  function LoadConfig(env: map<string, string>): (c: Config)
    ensures c.host != "" && c.appUrl != "" && c.scopes != ""
    ensures "HOST" in env && env["HOST"] != "" ==> c.host == env["HOST"]
    ensures !("HOST" in env && env["HOST"] != "") ==> c.host == DefaultHost
    ensures "APP_URL" in env && env["APP_URL"] != "" ==> c.appUrl == env["APP_URL"]
    ensures !("APP_URL" in env && env["APP_URL"] != "") ==> c.appUrl == c.host
    ensures "SHOPIFY_SCOPES" in env && env["SHOPIFY_SCOPES"] != "" ==> c.scopes == env["SHOPIFY_SCOPES"]
    ensures !("SHOPIFY_SCOPES" in env && env["SHOPIFY_SCOPES"] != "") ==> c.scopes == DefaultScopes
    ensures "SHOPIFY_API_KEY" in env ==> c.apiKey == env["SHOPIFY_API_KEY"]
    ensures "SHOPIFY_API_KEY" !in env ==> c.apiKey == ""
    ensures "SHOPIFY_API_SECRET" in env ==> c.apiSecret == env["SHOPIFY_API_SECRET"]
    ensures "SHOPIFY_API_SECRET" !in env ==> c.apiSecret == ""
  {
    var host := EnvOr(env, "HOST", DefaultHost);
    Config(
      EnvOr(env, "SHOPIFY_API_KEY", ""),
      EnvOr(env, "SHOPIFY_API_SECRET", ""),
      host,
      EnvOr(env, "APP_URL", host),
      EnvOr(env, "SHOPIFY_SCOPES", DefaultScopes))
  }

  /** A configuration as `LoadConfig` can produce it. */
  predicate Loaded(c: Config) {
    c.host != "" && c.appUrl != "" && c.scopes != ""
  }
}

=== FILE: handshake_properties.dfy ===
/** Properties of whole handshakes: sequences of initiation and callback
    transitions, and what they may and may not write. */
module HandshakeProperties {
  import opened Options
  import opened JsString
  import opened UrlEncoding
  import opened Hmac
  import opened TokenStore
  import opened Config
  import opened OAuth

  /** The query carries, as `hmac`, the digest of its own canonical message
      under `secret`. */
  predicate SignedWith(q: Query, secret: string, mac: MacFn) {
    var digest := mac(secret, CanonicalMessage(q));
    digest != "" && Lookup(q, "hmac") == Some(digest)
  }

  /** A callback without `shop`, `code` or `state` gets the same 400 whatever
      the session and the store hold and whatever the platform would have
      answered: the check runs before either is consulted. */
  lemma MissingParamsRejectedFirst(cfg: Config, mac1: MacFn, mac2: MacFn, s1: Session, s2: Session,
                                   st1: Store, st2: Store, q: Query,
                                   reply1: ExchangeReply, reply2: ExchangeReply, now1: string, now2: string)
    requires !ParamsPresent(q)
    ensures var r1 := Callback(cfg, mac1, s1, st1, q, reply1, now1);
            var r2 := Callback(cfg, mac2, s2, st2, q, reply2, now2);
            && r1.response == r2.response == Text(400, "Missing required query params")
            && r1.exchange.None? && r2.exchange.None?
  {
  }

  /** When the session does not match, the reply is the state error however
      the `hmac` would have verified: the state check comes first. */
  lemma StateCheckedBeforeHmac(cfg: Config, mac1: MacFn, mac2: MacFn, session: Session, store: Store,
                               q: Query, reply: ExchangeReply, now: string)
    requires ParamsPresent(q) && !StateMatches(session, q)
    ensures Callback(cfg, mac1, session, store, q, reply, now)
            == Callback(cfg, mac2, session, store, q, reply, now)
            == Reject(400, "Invalid state or session mismatch", session, store, None)
  {
  }

  /** No token is written, and the code is not even exchanged, unless all
      three checks pass; a write also needs an `access_token` in the reply. */
  lemma StoreWrittenOnlyAfterChecks(cfg: Config, mac: MacFn, session: Session, store: Store, q: Query,
                                    reply: ExchangeReply, now: string)
    requires Callback(cfg, mac, session, store, q, reply, now).store != store
    ensures ParamsPresent(q) && StateMatches(session, q) && VerifyHmac(q, cfg.apiSecret, mac)
    ensures Granted(reply)
    ensures Callback(cfg, mac, session, store, q, reply, now).exchange.Some?
  {
  }

  /** The scope stored is the reply's `scope`, or the configured scopes
      when the reply has none, so with a loaded configuration it is never
      NULL. */
  lemma StoredScope(cfg: Config, mac: MacFn, session: Session, store: Store, q: Query,
                    reply: ExchangeReply, now: string)
    requires Loaded(cfg)
    requires Accepted(cfg, mac, session, q) && Granted(reply)
    ensures var row := Callback(cfg, mac, session, store, q, reply, now).store[Lookup(q, "shop").value];
            && row.scope == Some(if Truthy(reply.scope) then reply.scope.value else cfg.scopes)
            && row.accessToken == reply.accessToken.value
  {
  }

  /** A blank shop field (empty or only white space) is refused with a 400
      and the pending pair is left as it was. */
  lemma BlankShopRefused(cfg: Config, session: Session, shop: string, state: string)
    requires IsStateToken(state)
    requires AllTrimmable(shop)
    ensures InitiatePost(cfg, session, Some(shop), state) == Initiation(Text(400, "Missing shop domain"), session)
  {
    AllTrimmableTrimsToEmpty(shop);
  }

  /** Once a new handshake has started with `state`, a callback presenting
      any other state is refused without touching the store: starting again
      invalidates every earlier state. */
  lemma NewHandshakeInvalidatesOldState(cfg: Config, mac: MacFn, init: Initiation, session: Session,
                                        shop: string, base: string, state: string, store: Store,
                                        q: Query, reply: ExchangeReply, now: string)
    requires StartedHandshake(init, cfg, session, shop, base, state)
    requires Lookup(q, "state") != Some(state)
    ensures var r := Callback(cfg, mac, init.session, store, q, reply, now);
            && r.response.Text? && r.response.status == 400
            && r.store == store && r.exchange.None?
  {
  }

  /** Two initiations in a row, by either route, with different random
      states: a callback carrying the first state is refused as a state
      mismatch. */
  lemma StaleStateRejected(cfg: Config, mac: MacFn, s0: Session, init1: Initiation, init2: Initiation,
                           shop1: string, shop2: string, base1: string, base2: string,
                           t1: string, t2: string, store: Store, q: Query, reply: ExchangeReply, now: string)
    requires StartedHandshake(init1, cfg, s0, shop1, base1, t1)
    requires StartedHandshake(init2, cfg, init1.session, shop2, base2, t2)
    requires t1 != t2
    requires ParamsPresent(q) && Lookup(q, "state") == Some(t1)
    ensures Callback(cfg, mac, init2.session, store, q, reply, now)
            == Reject(400, "Invalid state or session mismatch", init2.session, store, None)
  {
  }

  /** Two POST initiations in a row, with different random states: a
      callback carrying the first state is refused as a state mismatch,
      whether or not the first initiation was itself refused. */
  lemma TwoPostsStaleState(cfg: Config, mac: MacFn, s0: Session, shop1: Option<string>, shop2: Option<string>,
                           t1: string, t2: string, store: Store, q: Query, reply: ExchangeReply, now: string)
    requires IsStateToken(t1) && IsStateToken(t2) && t1 != t2
    requires Trim(OrEmpty(shop2)) != ""
    requires ParamsPresent(q) && Lookup(q, "state") == Some(t1)
    ensures var s1 := InitiatePost(cfg, s0, shop1, t1).session;
            var s2 := InitiatePost(cfg, s1, shop2, t2).session;
            Callback(cfg, mac, s2, store, q, reply, now)
            == Reject(400, "Invalid state or session mismatch", s2, store, None)
  {
  }

  /** A successful callback consumes the pending pair: the same callback
      presented again is refused as a state mismatch and stores nothing. */
  lemma ReplayRejected(cfg: Config, mac: MacFn, session: Session, store: Store, q: Query,
                       reply1: ExchangeReply, reply2: ExchangeReply, now1: string, now2: string)
    requires Callback(cfg, mac, session, store, q, reply1, now1).response.Redirect?
    ensures var r1 := Callback(cfg, mac, session, store, q, reply1, now1);
            var r2 := Callback(cfg, mac, r1.session, r1.store, q, reply2, now2);
            r2 == Reject(400, "Invalid state or session mismatch", r1.session, r1.store, None)
  {
  }

  /** A callback whose token exchange failed keeps the pending pair, so the
      same callback may be presented again and can then succeed. */
  lemma RetryAfterFailedExchange(cfg: Config, mac: MacFn, session: Session, store: Store, q: Query,
                                 reply: ExchangeReply, now1: string, now2: string)
    requires Accepted(cfg, mac, session, q) && Granted(reply)
    ensures var r1 := Callback(cfg, mac, session, store, q, Threw, now1);
            && r1.session == session && r1.store == store
            && Callback(cfg, mac, r1.session, r1.store, q, reply, now2).response.Redirect?
  {
  }

  /** The whole happy path: an initiation for a shop, then a signed callback
      for that shop with the state it issued, and a reply carrying a token.
      Afterwards the token is what a lookup for the shop returns, the shop
      is listed, the session records the shop as connected with no pending
      pair, and the browser goes to the dashboard. */
  lemma HandshakeCompletes(cfg: Config, mac: MacFn, s0: Session, shopField: Option<string>, state: string,
                           store: Store, q: Query, token: string, scope: Option<string>, now: string)
    requires IsStateToken(state)
    requires Trim(OrEmpty(shopField)) != ""
    requires Lookup(q, "shop") == Some(Trim(OrEmpty(shopField)))
    requires Lookup(q, "state") == Some(state) && Truthy(Lookup(q, "code"))
    requires SignedWith(q, cfg.apiSecret, mac)
    requires token != ""
    ensures var shop := Trim(OrEmpty(shopField));
            var r := Callback(cfg, mac, InitiatePost(cfg, s0, shopField, state).session, store, q,
                              Body(Some(token), scope), now);
            && GetToken(r.store, shop) == Some(token)
            && Listing(shop, now) in ListShops(r.store)
            && r.session == Session(None, None, Some(shop))
            && r.response == Redirect(302, DashboardUrl(shop))
  {
    var shop := Trim(OrEmpty(shopField));
    var init := InitiatePost(cfg, s0, shopField, state);
    assert StartedHandshake(init, cfg, s0, shop, cfg.host, state);
    StartedThenAccepted(cfg, mac, init, s0, shop, cfg.host, state, q);
    AcceptedCallbackConnects(cfg, mac, init.session, store, q, shop, token, scope, now);
  }

  /** A signed callback carrying the pending pair of a started handshake
      passes all three checks. */
  lemma StartedThenAccepted(cfg: Config, mac: MacFn, init: Initiation, session: Session, shop: string,
                            base: string, state: string, q: Query)
    requires StartedHandshake(init, cfg, session, shop, base, state)
    requires shop != "" && state != ""
    requires Lookup(q, "shop") == Some(shop) && Lookup(q, "state") == Some(state)
    requires Truthy(Lookup(q, "code"))
    requires SignedWith(q, cfg.apiSecret, mac)
    ensures Accepted(cfg, mac, init.session, q)
  {
    assert init.session.oauthState == Some(state) && init.session.oauthShop == Some(shop);
    assert ParamsPresent(q);
    assert StateMatches(init.session, q);
    assert VerifyHmac(q, cfg.apiSecret, mac) by {
      assert Lookup(q, "hmac") == Some(mac(cfg.apiSecret, CanonicalMessage(q)));
    }
  }

  /** An accepted callback whose reply carries a token connects the shop. */
  lemma AcceptedCallbackConnects(cfg: Config, mac: MacFn, session: Session, store: Store, q: Query,
                                 shop: string, token: string, scope: Option<string>, now: string)
    requires Accepted(cfg, mac, session, q) && Lookup(q, "shop") == Some(shop)
    requires token != ""
    ensures var r := Callback(cfg, mac, session, store, q, Body(Some(token), scope), now);
            && GetToken(r.store, shop) == Some(token)
            && Listing(shop, now) in ListShops(r.store)
            && r.session == Session(None, None, Some(shop))
            && r.response == Redirect(302, DashboardUrl(shop))
  {
    var r := Callback(cfg, mac, session, store, q, Body(Some(token), scope), now);
    assert Granted(Body(Some(token), scope));
    assert shop in r.store && r.store[shop].installedAt == now;
  }

  /** The same handshake with an `hmac` computed under another secret,
      whose digest differs from the right one: refused, nothing stored,
      the pending pair kept. */
  lemma ForgedSignatureRejected(cfg: Config, mac: MacFn, session: Session, store: Store, q: Query,
                                wrongSecret: string, reply: ExchangeReply, now: string)
    requires ParamsPresent(q) && StateMatches(session, q)
    requires Lookup(q, "hmac") == Some(mac(wrongSecret, CanonicalMessage(q)))
    requires mac(wrongSecret, CanonicalMessage(q)) != mac(cfg.apiSecret, CanonicalMessage(q))
    ensures Callback(cfg, mac, session, store, q, reply, now)
            == Reject(400, "HMAC validation failed", session, store, None)
  {
  }

  /** Presenting the same parameters in another order does not change the
      outcome of a callback. */
  lemma CallbackOrderIndependent(cfg: Config, mac: MacFn, session: Session, store: Store,
                                 q1: Query, q2: Query, reply: ExchangeReply, now: string)
    requires multiset(q1) == multiset(q2)
    ensures Callback(cfg, mac, session, store, q1, reply, now) == Callback(cfg, mac, session, store, q2, reply, now)
  {
    CanonicalOrderIndependent(q1, q2);
    LookupPermutation(q1, q2, "shop");
    LookupPermutation(q1, q2, "code");
    LookupPermutation(q1, q2, "state");
    LookupPermutation(q1, q2, "hmac");
    assert VerifyHmac(q1, cfg.apiSecret, mac) == VerifyHmac(q2, cfg.apiSecret, mac);
  }

  /** For a shop whose name is a plain domain the dashboard address carries
      the name unescaped. */
  lemma DashboardUrlForDomain(shop: string)
    requires forall i :: 0 <= i < |shop| ==> IsDomainChar(shop[i])
    ensures DashboardUrl(shop) == "/dashboard.html?shop=" + shop + "&connected=1"
  {
    UriComponentKeepsDomain(shop);
  }
}

=== FILE: hmac.dfy ===
/** The callback's message-integrity check (`verifyHmac`): the canonical
    message built from the query, and the comparison of the supplied
    `hmac` with the digest computed over it. HMAC-SHA256 with hex output is
    not modelled; it is the parameter `mac`, about which nothing is known. */
module Hmac {
  import opened Options
  import opened JsString
  import opened Utf8

  type Pair = (string, string)

  predicate DistinctKeys(q: seq<Pair>) {
    forall i, j :: 0 <= i < j < |q| ==> q[i].0 != q[j].0
  }

  /** A parsed query string, as the JavaScript object the request carries:
      each key at most once, in order of arrival. */
  type Query = q: seq<Pair> | DistinctKeys(q)

  /** `(secret, message) -> hex digest`: the keyed hash, left uninterpreted. */
  type MacFn = (string, string) -> string

  function Keys(q: seq<Pair>): (r: seq<string>)
    ensures |r| == |q|
    ensures forall i :: 0 <= i < |q| ==> r[i] == q[i].0
  {
    if |q| == 0 then [] else [q[0].0] + Keys(q[1..])
  }

  /** `query[k]`: the value stored under `k`, or `None` when `k` is absent. */
  function Lookup(q: Query, k: string): (r: Option<string>)
    ensures r.Some? <==> k in Keys(q)
    ensures forall i :: 0 <= i < |q| && q[i].0 == k ==> r == Some(q[i].1)
  {
    if |q| == 0 then None
    else if q[0].0 == k then Some(q[0].1)
    else
      assert forall i :: 0 < i < |q| ==> q[1..][i - 1] == q[i];
      Lookup(q[1..], k)
  }

  /** The keys `verifyHmac` deletes before building the message. */
  predicate IsSignatureKey(k: string) {
    k == "hmac" || k == "signature"
  }

  /** The query without its `hmac` and `signature` entries, other entries
      kept in order. */
  function Strip(q: Query): (r: Query)
    ensures forall i :: 0 <= i < |r| ==> !IsSignatureKey(r[i].0)
    ensures forall p :: p in r <==> p in q && !IsSignatureKey(p.0)
  {
    if |q| == 0 then []
    else
      var rest := Strip(q[1..]);
      assert q == [q[0]] + q[1..];
      if IsSignatureKey(q[0].0) then rest
      else
        assert forall i :: 0 <= i < |rest| ==> rest[i] in q[1..];
        [q[0]] + rest
  }

  /** One `key=value` piece per key of `ks`, with the value `m` holds. */
  function Pieces(ks: seq<string>, m: Query): (r: seq<string>)
    requires forall i :: 0 <= i < |ks| ==> ks[i] in Keys(m)
    ensures |r| == |ks|
    ensures forall i :: 0 <= i < |ks| ==> r[i] == ks[i] + "=" + Lookup(m, ks[i]).value
  {
    if |ks| == 0 then [] else [ks[0] + "=" + Lookup(m, ks[0]).value] + Pieces(ks[1..], m)
  }

  /** The sorted keys of the stripped query. */
  function SignedKeys(q: Query): (ks: seq<string>)
    ensures Sorted(ks)
    ensures multiset(ks) == multiset(Keys(Strip(q)))
    ensures forall i :: 0 <= i < |ks| ==> ks[i] in Keys(Strip(q))
  {
    var ks := SortStrings(Keys(Strip(q)));
    assert forall i :: 0 <= i < |ks| ==> ks[i] in multiset(ks);
    ks
  }

  /** The message the platform signs: `hmac` and `signature` dropped, the
      remaining keys sorted ascending, each written `key=value`, joined
      with '&'. */
  function CanonicalMessage(q: Query): (m: string)
    ensures m == "" <==> |SignedKeys(q)| == 0
  {
    var ps := Pieces(SignedKeys(q), Strip(q));
    JoinEmpty(ps, '&');
    Join(ps, '&')
  }

  /** With no '&' in any key or value, the message splits back at '&'
      into exactly the sorted `key=value` pieces it was built from. */
  lemma CanonicalMessageSplits(q: Query)
    requires AmpersandFree(q) && |SignedKeys(q)| > 0
    ensures Split(CanonicalMessage(q), '&') == Pieces(SignedKeys(q), Strip(q))
  {
    PiecesAmpersandFree(q);
    SplitJoin(Pieces(SignedKeys(q), Strip(q)), '&');
  }

  /** `crypto.timingSafeEqual(a, b)`: `None` stands for the exception it
      throws when the lengths differ; otherwise every byte is compared. */
  function TimingSafeEqual(a: seq<Byte>, b: seq<Byte>): (r: Option<bool>)
    ensures r.None? <==> |a| != |b|
    ensures r == Some(true) <==> a == b
  {
    if |a| != |b| then None else Some(!Differs(a, b))
  }

  /** Whether two equal-length byte strings differ anywhere. */
  function Differs(a: seq<Byte>, b: seq<Byte>): (d: bool)
    requires |a| == |b|
    ensures d <==> a != b
    decreases |a|
  {
    if |a| == 0 then false
    else
      var rest := Differs(a[1..], b[1..]);
      assert a == [a[0]] + a[1..] && b == [b[0]] + b[1..];
      rest || a[0] != b[0]
  }

  /** `verifyHmac(query)`: false when `hmac` is absent or empty; otherwise
      the digest of the canonical message and the supplied `hmac` are
      compared as UTF-8 bytes, a length mismatch counting as failure. It
      accepts exactly when the supplied `hmac` is the digest. */
  function VerifyHmac(q: Query, secret: string, mac: MacFn): (ok: bool)
    ensures ok <==> Truthy(Lookup(q, "hmac")) && Lookup(q, "hmac").value == mac(secret, CanonicalMessage(q))
  {
    var hmac := Lookup(q, "hmac");
    if !Truthy(hmac) then false
    else
      var generated := mac(secret, CanonicalMessage(q));
      match TimingSafeEqual(Encode(generated), Encode(hmac.value))
      case None => false
      case Some(same) =>
        if same then EncodeInjective(generated, hmac.value); true else false
  }

  /** A supplied `hmac` whose UTF-8 length differs from the digest's is
      rejected (the comparison throws and the exception is swallowed). */
  lemma LengthMismatchRejected(q: Query, secret: string, mac: MacFn)
    requires Lookup(q, "hmac").Some?
    requires |Encode(Lookup(q, "hmac").value)| != |Encode(mac(secret, CanonicalMessage(q)))|
    ensures !VerifyHmac(q, secret, mac)
  {
  }

  // ----- the message does not depend on the order of the query -----

  /** A query holds each key at most once. */
  lemma {:induction false} KeyCountAtMostOne(q: Query, k: string)
    ensures multiset(Keys(q))[k] <= 1
    decreases |q|
  {
    if |q| > 0 {
      var rest: Query := q[1..];
      KeyCountAtMostOne(rest, k);
      assert Keys(q) == [q[0].0] + Keys(rest);
      if q[0].0 == k {
        assert k !in Keys(rest) by {
          assert forall i :: 0 <= i < |rest| ==> Keys(rest)[i] == q[i + 1].0;
        }
      }
    }
  }

  /** Rearranging a query rearranges its keys. */
  lemma KeysPermutation(a: Query, b: Query)
    requires multiset(a) == multiset(b)
    ensures multiset(Keys(a)) == multiset(Keys(b))
  {
    forall k ensures multiset(Keys(a))[k] == multiset(Keys(b))[k] {
      KeyCountAtMostOne(a, k);
      KeyCountAtMostOne(b, k);
      LookupPermutation(a, b, k);
      assert k in Keys(a) <==> k in multiset(Keys(a));
      assert k in Keys(b) <==> k in multiset(Keys(b));
    }
  }

  /** For each key `k`, the stripped query holds `k` exactly as the query
      does unless `k` is a signature key. */
  lemma LookupStrip(q: Query, k: string)
    ensures Lookup(Strip(q), k) == if IsSignatureKey(k) then None else Lookup(q, k)
  {
    var s := Strip(q);
    if Lookup(s, k).Some? {
      var i :| 0 <= i < |s| && s[i].0 == k;
      assert s[i] in q;
    }
    if !IsSignatureKey(k) && Lookup(q, k).Some? {
      var i :| 0 <= i < |q| && q[i].0 == k;
      assert q[i] in s;
    }
  }

  /** Rearranging a query leaves every lookup unchanged. */
  lemma LookupPermutation(a: Query, b: Query, k: string)
    requires multiset(a) == multiset(b)
    ensures Lookup(a, k) == Lookup(b, k)
  {
    if Lookup(a, k).Some? {
      var i :| 0 <= i < |a| && a[i].0 == k;
      assert a[i] in multiset(b);
    }
    if Lookup(b, k).Some? {
      var i :| 0 <= i < |b| && b[i].0 == k;
      assert b[i] in multiset(a);
    }
  }

  lemma PiecesAgree(ks: seq<string>, m1: Query, m2: Query)
    requires forall i :: 0 <= i < |ks| ==> ks[i] in Keys(m1) && ks[i] in Keys(m2)
    requires forall i :: 0 <= i < |ks| ==> Lookup(m1, ks[i]) == Lookup(m2, ks[i])
    ensures Pieces(ks, m1) == Pieces(ks, m2)
  {
  }

  /** Rearranging the query's parameters does not change the canonical
      message, hence not the outcome of the check. */
  lemma CanonicalOrderIndependent(q1: Query, q2: Query)
    requires multiset(q1) == multiset(q2)
    ensures CanonicalMessage(q1) == CanonicalMessage(q2)
  {
    var s1, s2 := Strip(q1), Strip(q2);
    assert multiset(s1) == multiset(s2) by {
      SetLikeMultiset(s1);
      SetLikeMultiset(s2);
      forall p ensures multiset(s1)[p] == multiset(s2)[p] {
        assert p in s1 <==> p in q1 && !IsSignatureKey(p.0);
        assert p in s2 <==> p in q2 && !IsSignatureKey(p.0);
        assert p in q1 <==> p in multiset(q1);
        assert p in q2 <==> p in multiset(q2);
      }
    }
    KeysPermutation(s1, s2);
    SortedUnique(SignedKeys(q1), SignedKeys(q2));
    var ks := SignedKeys(q1);
    forall i | 0 <= i < |ks| ensures Lookup(s1, ks[i]) == Lookup(s2, ks[i]) {
      LookupPermutation(s1, s2, ks[i]);
    }
    PiecesAgree(ks, s1, s2);
  }

  /** A query holds each pair at most once. */
  lemma SetLikeMultiset(q: Query)
    ensures forall p :: multiset(q)[p] <= 1
  {
    forall p ensures multiset(q)[p] <= 1 {
      CountAtMostOne(q, p);
    }
  }

  lemma {:induction false} CountAtMostOne(q: Query, p: Pair)
    ensures multiset(q)[p] <= 1
    decreases |q|
  {
    if |q| > 0 {
      var rest: Query := q[1..];
      CountAtMostOne(rest, p);
      assert q == [q[0]] + rest;
      if q[0] == p {
        assert p !in rest by {
          assert forall i :: 0 <= i < |rest| ==> rest[i].0 != p.0 by {
            assert forall i :: 0 <= i < |rest| ==> rest[i] == q[i + 1];
          }
        }
      }
    }
  }

  // ----- tampering with a value changes the message -----

  /** No key or value of the query holds an '&'. */
  predicate AmpersandFree(q: Query) {
    forall i :: 0 <= i < |q| ==> '&' !in q[i].0 && '&' !in q[i].1
  }

  /** Joining pieces free of '&' tells different piece lists apart. */
  lemma JoinDistinguishes(xs: seq<string>, ys: seq<string>)
    requires |xs| > 0 && |ys| > 0
    requires forall i :: 0 <= i < |xs| ==> '&' !in xs[i]
    requires forall i :: 0 <= i < |ys| ==> '&' !in ys[i]
    requires xs != ys
    ensures Join(xs, '&') != Join(ys, '&')
  {
    SplitJoin(xs, '&');
    SplitJoin(ys, '&');
  }

  lemma PiecesAmpersandFree(q: Query)
    requires AmpersandFree(q)
    ensures forall i :: 0 <= i < |SignedKeys(q)| ==> '&' !in Pieces(SignedKeys(q), Strip(q))[i]
  {
    var s := Strip(q);
    var ks := SignedKeys(q);
    forall i | 0 <= i < |ks| ensures '&' !in Pieces(ks, s)[i] {
      PieceAmpersandFree(q, ks[i]);
    }
  }

  lemma PieceAmpersandFree(q: Query, k: string)
    requires AmpersandFree(q)
    requires k in Keys(Strip(q))
    ensures '&' !in k + "=" + Lookup(Strip(q), k).value
  {
    var s := Strip(q);
    var j :| 0 <= j < |s| && Keys(s)[j] == k;
    assert s[j] in q;
    var m :| 0 <= m < |q| && q[m] == s[j];
    assert Lookup(s, k).value == s[j].1;
  }

  /** Changing the value of one signed parameter, while keeping the set of
      signed keys and no '&' in any key or value, changes the canonical
      message. */
  lemma TamperChangesMessage(q1: Query, q2: Query, k: string)
    requires multiset(Keys(Strip(q1))) == multiset(Keys(Strip(q2)))
    requires AmpersandFree(q1) && AmpersandFree(q2)
    requires !IsSignatureKey(k) && Lookup(q1, k).Some?
    requires Lookup(q1, k) != Lookup(q2, k)
    ensures CanonicalMessage(q1) != CanonicalMessage(q2)
  {
    var s1, s2 := Strip(q1), Strip(q2);
    SortedUnique(SignedKeys(q1), SignedKeys(q2));
    var ks := SignedKeys(q1);
    LookupStrip(q1, k);
    LookupStrip(q2, k);
    assert k in multiset(Keys(s1));
    assert k in multiset(ks);
    var i :| 0 <= i < |ks| && ks[i] == k;
    PiecesDiffer(ks, s1, s2, i);
    PiecesAmpersandFree(q1);
    PiecesAmpersandFree(q2);
    JoinDistinguishes(Pieces(ks, s1), Pieces(ks, s2));
  }

  lemma PiecesDiffer(ks: seq<string>, m1: Query, m2: Query, i: nat)
    requires forall j :: 0 <= j < |ks| ==> ks[j] in Keys(m1) && ks[j] in Keys(m2)
    requires i < |ks| && Lookup(m1, ks[i]) != Lookup(m2, ks[i])
    ensures Pieces(ks, m1) != Pieces(ks, m2)
  {
    var k := ks[i];
    var p1, p2 := Pieces(ks, m1)[i], Pieces(ks, m2)[i];
    assert p1[|k| + 1..] == Lookup(m1, k).value;
    assert p2[|k| + 1..] == Lookup(m2, k).value;
  }

  /** With a keyed hash that gives these two messages different digests, a
      query whose signed value was changed after signing is rejected. */
  lemma TamperedQueryRejected(q1: Query, q2: Query, k: string, secret: string, mac: MacFn)
    requires CanonicalMessage(q1) != CanonicalMessage(q2) ==>
               mac(secret, CanonicalMessage(q1)) != mac(secret, CanonicalMessage(q2))
    requires VerifyHmac(q1, secret, mac)
    requires Lookup(q2, "hmac") == Lookup(q1, "hmac")
    requires multiset(Keys(Strip(q1))) == multiset(Keys(Strip(q2)))
    requires AmpersandFree(q1) && AmpersandFree(q2)
    requires !IsSignatureKey(k) && Lookup(q1, k).Some?
    requires Lookup(q1, k) != Lookup(q2, k)
    ensures !VerifyHmac(q2, secret, mac)
  {
    TamperChangesMessage(q1, q2, k);
  }

  /** Changing one signed value to another of the same length, everything
      else equal, changes the canonical message, whatever '&' or '=' the
      keys and values hold. */
  lemma SameLengthTamper(q1: Query, q2: Query, k: string)
    requires multiset(Keys(Strip(q1))) == multiset(Keys(Strip(q2)))
    requires !IsSignatureKey(k) && Lookup(q1, k).Some? && Lookup(q2, k).Some?
    requires Lookup(q1, k) != Lookup(q2, k) && |Lookup(q1, k).value| == |Lookup(q2, k).value|
    requires forall j :: j != k ==> Lookup(q1, j) == Lookup(q2, j)
    ensures CanonicalMessage(q1) != CanonicalMessage(q2)
  {
    var s1, s2 := Strip(q1), Strip(q2);
    SortedUnique(SignedKeys(q1), SignedKeys(q2));
    var ks := SignedKeys(q1);
    LookupStrip(q1, k);
    LookupStrip(q2, k);
    assert k in multiset(Keys(s1));
    assert k in multiset(ks);
    var i :| 0 <= i < |ks| && ks[i] == k;
    PiecesDiffer(ks, s1, s2, i);
    var p1, p2 := Pieces(ks, s1), Pieces(ks, s2);
    forall j | 0 <= j < |ks| ensures |p1[j]| == |p2[j]| {
      SameLengthPiece(q1, q2, k, ks[j]);
    }
    JoinSameShape(p1, p2, '&');
  }

  lemma SameLengthPiece(q1: Query, q2: Query, k: string, key: string)
    requires Lookup(q1, k).Some? && Lookup(q2, k).Some? && |Lookup(q1, k).value| == |Lookup(q2, k).value|
    requires forall j :: j != k ==> Lookup(q1, j) == Lookup(q2, j)
    requires key in Keys(Strip(q1)) && key in Keys(Strip(q2))
    ensures |key + "=" + Lookup(Strip(q1), key).value| == |key + "=" + Lookup(Strip(q2), key).value|
  {
    LookupStrip(q1, key);
    LookupStrip(q2, key);
    if key != k {
      assert Lookup(q1, key) == Lookup(q2, key);
    }
  }

  /** The verifier's view of `SameLengthTamper`: with a keyed hash that
      tells the two messages apart, the altered query is rejected. */
  lemma SameLengthTamperRejected(q1: Query, q2: Query, k: string, secret: string, mac: MacFn)
    requires CanonicalMessage(q1) != CanonicalMessage(q2) ==>
               mac(secret, CanonicalMessage(q1)) != mac(secret, CanonicalMessage(q2))
    requires VerifyHmac(q1, secret, mac)
    requires Lookup(q2, "hmac") == Lookup(q1, "hmac")
    requires multiset(Keys(Strip(q1))) == multiset(Keys(Strip(q2)))
    requires !IsSignatureKey(k) && Lookup(q1, k).Some? && Lookup(q2, k).Some?
    requires Lookup(q1, k) != Lookup(q2, k) && |Lookup(q1, k).value| == |Lookup(q2, k).value|
    requires forall j :: j != k ==> Lookup(q1, j) == Lookup(q2, j)
    ensures !VerifyHmac(q2, secret, mac)
  {
    SameLengthTamper(q1, q2, k);
  }

  lemma {:induction false} StripUnsigned(q: Query)
    requires forall i :: 0 <= i < |q| ==> !IsSignatureKey(q[i].0)
    ensures Strip(q) == q
    decreases |q|
  {
    if |q| > 0 {
      var rest: Query := q[1..];
      StripUnsigned(rest);
      assert q == [q[0]] + rest;
    }
  }

  lemma TwoEntryKeys(q: Query, a: string, b: string)
    requires |q| == 2 && q[0].0 == a && q[1].0 == b
    requires !IsSignatureKey(a) && !IsSignatureKey(b) && Below(a, b)
    ensures SignedKeys(q) == [a, b]
  {
    StripUnsigned(q);
    assert Keys(q) == [a, b];
    assert [a, b][1..] == [b];
    assert SortStrings([b]) == [b];
    assert Insert(a, [b]) == [a, b];
  }

  lemma TwoEntryPieces(q: Query, a: string, b: string)
    requires |q| == 2 && q[0].0 == a && q[1].0 == b
    ensures a in Keys(q) && b in Keys(q)
    ensures Pieces([a, b], q) == [a + "=" + q[0].1, b + "=" + q[1].1]
  {
  }

  lemma TwoPieceJoin(p1: string, p2: string)
    ensures Join([p1, p2], '&') == p1 + "&" + p2
  {
    assert [p1, p2][1..] == [p2];
  }

  lemma TwoEntryMessage(q: Query, a: string, b: string)
    requires |q| == 2 && q[0].0 == a && q[1].0 == b
    requires !IsSignatureKey(a) && !IsSignatureKey(b) && Below(a, b)
    ensures CanonicalMessage(q) == (a + "=" + q[0].1) + "&" + (b + "=" + q[1].1)
  {
    TwoEntryKeys(q, a, b);
    StripUnsigned(q);
    TwoEntryPieces(q, a, b);
    MessageOfPieces(q, [a, b], [a + "=" + q[0].1, b + "=" + q[1].1]);
    TwoPieceJoin(a + "=" + q[0].1, b + "=" + q[1].1);
  }

  lemma MessageOfPieces(q: Query, ks: seq<string>, ps: seq<string>)
    requires SignedKeys(q) == ks && Strip(q) == q
    requires forall i :: 0 <= i < |ks| ==> ks[i] in Keys(q)
    requires Pieces(ks, q) == ps
    ensures CanonicalMessage(q) == Join(ps, '&')
  {
  }

  lemma OneEntryMessage(q: Query, a: string)
    requires |q| == 1 && q[0].0 == a && !IsSignatureKey(a)
    ensures CanonicalMessage(q) == a + "=" + q[0].1
  {
    StripUnsigned(q);
    assert Keys(q) == [a];
    assert SortStrings([a]) == [a];
    assert Lookup(q, a) == Some(q[0].1);
  }

  /** Without the '&'-free premise the message does not tell queries apart:
      a value `x` followed by "&b=y" signs the same text as a separate
      entry `b` with value `y`. */
  lemma CanonicalMessageAmbiguous(q1: Query, q2: Query, a: string, b: string, x: string, y: string)
    requires !IsSignatureKey(a) && !IsSignatureKey(b) && Below(a, b)
    requires q1 == [(a, x + "&" + b + "=" + y)]
    requires q2 == [(a, x), (b, y)]
    ensures q1 != q2
    ensures CanonicalMessage(q1) == CanonicalMessage(q2) == a + "=" + x + "&" + b + "=" + y
  {
    var m := a + "=" + x + "&" + b + "=" + y;
    TwoEntryMessage(q2, a, b);
    assert (a + "=" + x) + "&" + (b + "=" + y) == m by {
      ConcatAssoc(a + "=" + x + "&", b + "=", y);
      ConcatAssoc(a + "=" + x + "&", b, "=");
    }
    OneEntryMessage(q1, a);
    assert a + "=" + (x + "&" + b + "=" + y) == m by {
      ConcatAssoc(a + "=", x + "&" + b + "=", y);
      ConcatAssoc(a + "=", x + "&" + b, "=");
      ConcatAssoc(a + "=", x + "&", b);
      ConcatAssoc(a + "=", x, "&");
    }
  }

}

=== FILE: jsstring.dfy ===
/** The JavaScript string behaviour the handshake relies on: `trim`, the
    truthiness of a string that may be absent, the order used by the default
    `Array.prototype.sort`, and `join`/`split` on a one-character separator. */
module JsString {
  import opened Options

  /** Code points removed by `String.prototype.trim`: the ECMAScript
      WhiteSpace and LineTerminator productions (Zs included). */
  predicate IsTrimmable(c: char) {
    var n := c as int;
    || (0x09 <= n <= 0x0D)
    || n == 0x20 || n == 0xA0 || n == 0x1680
    || (0x2000 <= n <= 0x200A)
    || n == 0x2028 || n == 0x2029 || n == 0x202F || n == 0x205F
    || n == 0x3000 || n == 0xFEFF
  }

  predicate AllTrimmable(s: string) {
    forall i :: 0 <= i < |s| ==> IsTrimmable(s[i])
  }

  /** Drops leading trimmable characters. */
  function TrimStart(s: string): (r: string)
    ensures |r| <= |s| && r == s[|s| - |r|..]
    ensures AllTrimmable(s[..|s| - |r|])
    ensures r == [] || !IsTrimmable(r[0])
    decreases |s|
  {
    if |s| > 0 && IsTrimmable(s[0]) then
      var r := TrimStart(s[1..]);
      TrimStartStep(s, r);
      r
    else s
  }

  lemma TrimStartStep(s: string, r: string)
    requires |s| > 0 && IsTrimmable(s[0])
    requires |r| <= |s| - 1 && r == s[1..][|s| - 1 - |r|..] && AllTrimmable(s[1..][..|s| - 1 - |r|])
    ensures r == s[|s| - |r|..] && AllTrimmable(s[..|s| - |r|])
  {
    assert s[..|s| - |r|] == [s[0]] + s[1..][..|s| - 1 - |r|];
  }

  /** Drops trailing trimmable characters. */
  function TrimEnd(s: string): (r: string)
    ensures |r| <= |s| && r == s[..|r|]
    ensures AllTrimmable(s[|r|..])
    ensures r == [] || !IsTrimmable(r[|r| - 1])
    decreases |s|
  {
    if |s| > 0 && IsTrimmable(s[|s| - 1]) then
      var r := TrimEnd(s[..|s| - 1]);
      TrimEndStep(s, r);
      r
    else s
  }

  lemma TrimEndStep(s: string, r: string)
    requires |s| > 0 && IsTrimmable(s[|s| - 1])
    requires |r| <= |s| - 1 && r == s[..|s| - 1][..|r|] && AllTrimmable(s[..|s| - 1][|r|..])
    ensures r == s[..|r|] && AllTrimmable(s[|r|..])
  {
    assert s[|r|..] == s[..|s| - 1][|r|..] + [s[|s| - 1]];
  }

  /** `r` is `s` with a trimmable prefix of length `i` and a trimmable
      suffix cut off. */
  predicate CutFrom(s: string, r: string, i: int) {
    0 <= i && i + |r| <= |s| && r == s[i..i + |r|]
    && AllTrimmable(s[..i]) && AllTrimmable(s[i + |r|..])
  }

  /** `s.trim()`: the slice of `s` left when a trimmable prefix and suffix
      are cut off, which neither starts nor ends with a trimmable
      character. */
  function Trim(s: string): (r: string)
    ensures exists i :: CutFrom(s, r, i)
    ensures r == [] || (!IsTrimmable(r[0]) && !IsTrimmable(r[|r| - 1]))
  {
    var t := TrimStart(s);
    var r := TrimEnd(t);
    TrimCut(s, t, r);
    r
  }

  lemma TrimCut(s: string, t: string, r: string)
    requires |t| <= |s| && t == s[|s| - |t|..] && AllTrimmable(s[..|s| - |t|])
    requires |r| <= |t| && r == t[..|r|] && AllTrimmable(t[|r|..])
    ensures CutFrom(s, r, |s| - |t|)
  {
    var i := |s| - |t|;
    assert s[i..i + |r|] == r;
    assert s[i + |r|..] == t[|r|..];
  }

  /** Trimming an already trimmed string changes nothing. */
  lemma TrimIdempotent(s: string)
    ensures Trim(Trim(s)) == Trim(s)
  {
    TrimFixed(Trim(s));
  }

  /** A string without trimmable ends is its own trim. */
  lemma TrimFixed(s: string)
    requires s == [] || (!IsTrimmable(s[0]) && !IsTrimmable(s[|s| - 1]))
    ensures Trim(s) == s
  {
  }

  lemma {:induction false} TrimStartAllTrimmable(s: string)
    requires AllTrimmable(s)
    ensures TrimStart(s) == []
    decreases |s|
  {
    if |s| > 0 {
      TrimStartAllTrimmable(s[1..]);
    }
  }

  /** A string made only of trimmable characters trims to the empty string. */
  lemma AllTrimmableTrimsToEmpty(s: string)
    requires AllTrimmable(s)
    ensures Trim(s) == []
  {
    TrimStartAllTrimmable(s);
  }

  /** A string that trims to the empty string is made only of trimmable characters. */
  lemma EmptyTrimAllTrimmable(s: string)
    requires Trim(s) == []
    ensures AllTrimmable(s)
  {
    var i :| CutFrom(s, [], i);
    forall j | 0 <= j < |s| ensures IsTrimmable(s[j]) {
      if j < i {
        assert s[j] == s[..i][j];
      } else {
        assert s[j] == s[i..][j - i];
      }
    }
  }

  /** JavaScript truthiness of a value that is either absent or a string:
      `undefined` and `''` are falsy. */
  predicate Truthy(v: Option<string>) {
    v.Some? && v.value != ""
  }

  /** `v || ''` for a value that is either absent or a string. */
  function OrEmpty(v: Option<string>): (r: string)
    ensures Truthy(v) ==> r == v.value
    ensures !Truthy(v) ==> r == ""
  {
    if v.Some? then v.value else ""
  }

  /** The default sort order of `Array.prototype.sort` on strings:
      lexicographic by character code, a proper prefix first. */
  predicate Below(a: string, b: string)
    decreases |a|
  {
    |a| == 0 || (|b| > 0 && (a[0] < b[0] || (a[0] == b[0] && Below(a[1..], b[1..]))))
  }

  lemma {:induction false} BelowReflexive(a: string)
    ensures Below(a, a)
    decreases |a|
  {
    if |a| > 0 {
      BelowReflexive(a[1..]);
    }
  }

  lemma {:induction false} BelowTotal(a: string, b: string)
    ensures Below(a, b) || Below(b, a)
    decreases |a|
  {
    if |a| > 0 && |b| > 0 && a[0] == b[0] {
      BelowTotal(a[1..], b[1..]);
    }
  }

  lemma {:induction false} BelowAntisymmetric(a: string, b: string)
    requires Below(a, b) && Below(b, a)
    ensures a == b
    decreases |a|
  {
    if |a| > 0 {
      BelowAntisymmetric(a[1..], b[1..]);
      assert a == [a[0]] + a[1..];
      assert b == [b[0]] + b[1..];
    }
  }

  lemma {:induction false} BelowTransitive(a: string, b: string, c: string)
    requires Below(a, b) && Below(b, c)
    ensures Below(a, c)
    decreases |a|
  {
    if |a| > 0 && a[0] == b[0] && b[0] == c[0] {
      BelowTransitive(a[1..], b[1..], c[1..]);
    }
  }

  predicate Sorted(s: seq<string>) {
    forall i, j :: 0 <= i < j < |s| ==> Below(s[i], s[j])
  }

  /** Inserts `x` into a sorted sequence, keeping it sorted. */
  function Insert(x: string, s: seq<string>): (r: seq<string>)
    requires Sorted(s)
    ensures Sorted(r)
    ensures multiset(r) == multiset(s) + multiset{x}
    ensures |r| == |s| + 1
    decreases |s|
  {
    if |s| == 0 then [x]
    else if Below(x, s[0]) then
      InsertFrontSorted(x, s);
      [x] + s
    else
      BelowTotal(x, s[0]);
      var t := Insert(x, s[1..]);
      InsertBehindSorted(x, s, t);
      assert s == [s[0]] + s[1..];
      [s[0]] + t
  }

  lemma InsertFrontSorted(x: string, s: seq<string>)
    requires Sorted(s) && |s| > 0 && Below(x, s[0])
    ensures Sorted([x] + s)
  {
    forall j | 0 < j < |s| ensures Below(x, s[j]) {
      BelowTransitive(x, s[0], s[j]);
    }
  }

  lemma InsertBehindSorted(x: string, s: seq<string>, t: seq<string>)
    requires Sorted(s) && |s| > 0 && Below(s[0], x)
    requires Sorted(t) && multiset(t) == multiset(s[1..]) + multiset{x}
    ensures Sorted([s[0]] + t)
  {
    forall j | 0 <= j < |t| ensures Below(s[0], t[j]) {
      assert t[j] in multiset(t);
      if t[j] != x {
        assert t[j] in multiset(s[1..]);
        var k :| 0 <= k < |s[1..]| && s[1..][k] == t[j];
        assert s[k + 1] == t[j];
      }
    }
  }

  /** The default `sort()` of a sequence of strings: an ascending
      rearrangement of the same elements. */
  function SortStrings(s: seq<string>): (r: seq<string>)
    ensures Sorted(r)
    ensures multiset(r) == multiset(s)
    ensures |r| == |s|
    decreases |s|
  {
    if |s| == 0 then []
    else
      assert s == [s[0]] + s[1..];
      Insert(s[0], SortStrings(s[1..]))
  }

  /** Two sorted arrangements of the same elements are the same sequence:
      the sorted order does not depend on the order of the input. */
  lemma {:induction false} SortedUnique(a: seq<string>, b: seq<string>)
    requires Sorted(a) && Sorted(b)
    requires multiset(a) == multiset(b)
    ensures a == b
    decreases |a|
  {
    if |a| == 0 {
      assert |b| == |multiset(b)|;
    } else {
      SortedHeadsEqual(a, b);
      assert a == [a[0]] + a[1..];
      assert b == [b[0]] + b[1..];
      assert multiset(a[1..]) == multiset(a) - multiset{a[0]};
      assert multiset(b[1..]) == multiset(b) - multiset{b[0]};
      SortedUnique(a[1..], b[1..]);
    }
  }

  /** Two sorted arrangements of the same elements start alike. */
  lemma SortedHeadsEqual(a: seq<string>, b: seq<string>)
    requires Sorted(a) && Sorted(b)
    requires multiset(a) == multiset(b) && |a| > 0
    ensures |b| > 0 && a[0] == b[0]
  {
    assert a[0] in multiset(b);
    var i :| 0 <= i < |b| && b[i] == a[0];
    assert b[0] in multiset(a);
    var j :| 0 <= j < |a| && a[j] == b[0];
    if i > 0 { assert Below(b[0], b[i]); } else { BelowReflexive(b[0]); }
    if j > 0 { assert Below(a[0], a[j]); } else { BelowReflexive(a[0]); }
    BelowAntisymmetric(a[0], b[0]);
  }

  /** Sorting two rearrangements of the same elements gives the same result. */
  lemma SortPermutationInvariant(a: seq<string>, b: seq<string>)
    requires multiset(a) == multiset(b)
    ensures SortStrings(a) == SortStrings(b)
  {
    SortedUnique(SortStrings(a), SortStrings(b));
  }

  /** `xs.join(sep)`. */
  function Join(xs: seq<string>, sep: char): (r: string)
    ensures |xs| == 1 ==> r == xs[0]
    decreases |xs|
  {
    if |xs| == 0 then ""
    else if |xs| == 1 then xs[0]
    else xs[0] + [sep] + Join(xs[1..], sep)
  }

  /** `s.split(sep)`: the pieces between separator occurrences. */
  function Split(s: string, sep: char): (r: seq<string>)
    ensures |r| > 0
    decreases |s|
  {
    if |s| == 0 then [""]
    else if s[0] == sep then [""] + Split(s[1..], sep)
    else
      var rest := Split(s[1..], sep);
      [[s[0]] + rest[0]] + rest[1..]
  }

  lemma {:induction false} SplitNoSeparator(s: string, sep: char)
    requires sep !in s
    ensures Split(s, sep) == [s]
    decreases |s|
  {
    if |s| > 0 {
      SplitNoSeparator(s[1..], sep);
      assert s == [s[0]] + s[1..];
    }
  }

  lemma {:induction false} SplitAtSeparator(a: string, sep: char, t: string)
    requires sep !in a
    ensures Split(a + [sep] + t, sep) == [a] + Split(t, sep)
    decreases |a|
  {
    if |a| == 0 {
      assert a + [sep] + t == [sep] + t;
      assert ([sep] + t)[1..] == t;
    } else {
      var s := a + [sep] + t;
      assert s[0] == a[0];
      assert s[1..] == a[1..] + [sep] + t;
      SplitAtSeparator(a[1..], sep, t);
      assert a == [a[0]] + a[1..];
    }
  }

  /** Splitting undoes joining when no piece contains the separator. */
  lemma {:induction false} SplitJoin(xs: seq<string>, sep: char)
    requires |xs| > 0
    requires forall i :: 0 <= i < |xs| ==> sep !in xs[i]
    ensures Split(Join(xs, sep), sep) == xs
    decreases |xs|
  {
    if |xs| == 1 {
      SplitNoSeparator(xs[0], sep);
    } else {
      SplitJoin(xs[1..], sep);
      SplitAtSeparator(xs[0], sep, Join(xs[1..], sep));
      assert xs == [xs[0]] + xs[1..];
    }
  }

  /** String concatenation may be regrouped. */
  lemma ConcatAssoc(u: string, v: string, w: string)
    ensures u + (v + w) == u + v + w
  {
  }

  /** Joining non-empty pieces gives the empty string only for no pieces. */
  lemma JoinEmpty(xs: seq<string>, sep: char)
    requires forall i :: 0 <= i < |xs| ==> |xs[i]| > 0
    ensures Join(xs, sep) == "" <==> |xs| == 0
  {
    if |xs| > 1 {
      assert |Join(xs, sep)| >= |xs[0]|;
    }
  }

  /** Two lists of the same shape (as many pieces, each of the same length
      at the same position) join to different strings when they differ,
      whatever the pieces contain. */
  lemma {:induction false} JoinSameShape(xs: seq<string>, ys: seq<string>, sep: char)
    requires |xs| == |ys|
    requires forall i :: 0 <= i < |xs| ==> |xs[i]| == |ys[i]|
    requires xs != ys
    ensures Join(xs, sep) != Join(ys, sep)
    decreases |xs|
  {
    var a, b := Join(xs, sep), Join(ys, sep);
    if |xs| == 1 {
      assert xs == [xs[0]] && ys == [ys[0]];
    } else if xs[0] != ys[0] {
      assert a[..|xs[0]|] == xs[0];
      assert b[..|ys[0]|] == ys[0];
    } else {
      assert xs[1..] != ys[1..] by {
        assert xs == [xs[0]] + xs[1..] && ys == [ys[0]] + ys[1..];
      }
      JoinSameShape(xs[1..], ys[1..], sep);
      var n := |xs[0]| + 1;
      assert a[n..] == Join(xs[1..], sep);
      assert b[n..] == Join(ys[1..], sep);
    }
  }

  /** Joining pieces free of the separator loses no information. */
  lemma JoinInjective(xs: seq<string>, ys: seq<string>, sep: char)
    requires |xs| > 0 && |ys| > 0
    requires forall i :: 0 <= i < |xs| ==> sep !in xs[i]
    requires forall i :: 0 <= i < |ys| ==> sep !in ys[i]
    requires Join(xs, sep) == Join(ys, sep)
    ensures xs == ys
  {
    SplitJoin(xs, sep);
    SplitJoin(ys, sep);
  }
}

=== FILE: oauth.dfy ===
/** The install handshake of the Express server: the two initiation
    routes, which record a pending (state, shop) pair in the session and
    redirect to the shop's authorize page, and the callback route, which
    checks the returned parameters in a fixed order, exchanges the code
    and stores the token. Each route is a pure transition from the
    session and the token store to a response and their new values. */
module OAuth {
  import opened Options
  import opened JsString
  import opened UrlEncoding
  import opened Hmac
  import opened TokenStore
  import opened Config

  /** The fields of the browser session the handshake reads and writes. */
  datatype Session = Session(
    oauthState: Option<string>,     // state of the pending handshake
    oauthShop: Option<string>,      // shop of the pending handshake
    connectedShop: Option<string>)  // shop of the last completed handshake

  datatype Response =
    | Redirect(status: int, location: string)
    | ConnectForm                       // the HTML page asking for a shop domain
    | Text(status: int, body: string)   // a plain status reply

  /** A value `crypto.randomBytes(16).toString('hex')` can return. */
  predicate IsStateToken(t: string) {
    |t| == 32 && forall i :: 0 <= i < |t| ==> t[i] in "0123456789abcdef"
  }

  /** `s.replace(/\/$/, '')`: removes one trailing slash, if there is one. */
  function StripTrailingSlash(s: string): (r: string)
    ensures |s| > 0 && s[|s| - 1] == '/' ==> r + "/" == s
    ensures !(|s| > 0 && s[|s| - 1] == '/') ==> r == s
  {
    if |s| > 0 && s[|s| - 1] == '/' then s[..|s| - 1] else s
  }

  const CallbackPath: string := "/auth/shopify/callback"

  /** The `redirect_uri` sent to the platform for a given public base URL:
      the callback path appended to the base, less one trailing slash. */
  function CallbackUri(base: string): (r: string)
    ensures |CallbackPath| <= |r| && r[|r| - |CallbackPath|..] == CallbackPath
    ensures |base| > 0 && base[|base| - 1] == '/' ==> r[..|r| - |CallbackPath|] + "/" == base
    ensures !(|base| > 0 && base[|base| - 1] == '/') ==> r[..|r| - |CallbackPath|] == base
  {
    var stem := StripTrailingSlash(base);
    assert (stem + CallbackPath)[..|stem|] == stem;
    stem + CallbackPath
  }

  /** A base URL written with or without its final slash gives the same
      callback address. */
  lemma CallbackUriIgnoresTrailingSlash(base: string)
    requires base == [] || base[|base| - 1] != '/'
    ensures CallbackUri(base + "/") == CallbackUri(base)
  {
    assert (base + "/")[..|base|] == base;
  }

  /** The parameters of the authorize URL, in the order the source lists them. */
  function AuthorizeParams(cfg: Config, redirectUri: string, state: string): seq<(string, string)> {
    [("client_id", cfg.apiKey), ("scope", cfg.scopes), ("redirect_uri", redirectUri), ("state", state)]
  }

  /** Everything of the authorize URL before its query string. */
  function AuthorizeBase(shop: string): string {
    "https://" + shop + "/admin/oauth/authorize?"
  }

  datatype Initiation = Initiation(response: Response, session: Session)

  /** What both initiation routes promise once they have a shop: the session
      holds the new state and that shop as the pending pair (replacing any
      earlier pair, other fields untouched), and the reply is a 302 to the
      shop's authorize page whose query reads back as exactly the client id,
      the scopes, the callback address and the new state. */
  predicate StartedHandshake(r: Initiation, cfg: Config, session: Session, shop: string,
                             redirectBase: string, state: string) {
    && r.session == session.(oauthState := Some(state), oauthShop := Some(shop))
    && r.response.Redirect? && r.response.status == 302
    && var base := AuthorizeBase(shop);
       var url := r.response.location;
       && |base| <= |url| && url[..|base|] == base
       && ParseParams(url[|base|..]) == Some(AuthorizeParams(cfg, CallbackUri(redirectBase), state))
  }

  function BeginHandshake(cfg: Config, session: Session, shop: string, redirectBase: string, state: string): (r: Initiation)
    ensures StartedHandshake(r, cfg, session, shop, redirectBase, state)
  {
    var params := AuthorizeParams(cfg, CallbackUri(redirectBase), state);
    var url := AuthorizeBase(shop) + SerializeParams(params);
    assert url[|AuthorizeBase(shop)|..] == SerializeParams(params);
    Initiation(Redirect(302, url), session.(oauthState := Some(state), oauthShop := Some(shop)))
  }

  /** `GET /auth/shopify`: the shop is the trimmed `shop` query parameter,
      or else the session's connected shop; with one, the handshake starts
      with a callback address built from APP_URL; with neither, the form
      is shown and the session is unchanged. `state` is the random value
      drawn for the new handshake. */
  function InitiateGet(cfg: Config, session: Session, queryShop: Option<string>, state: string): (r: Initiation)
    requires IsStateToken(state)
    ensures Trim(OrEmpty(queryShop)) != "" ==>
              StartedHandshake(r, cfg, session, Trim(OrEmpty(queryShop)), cfg.appUrl, state)
    ensures Trim(OrEmpty(queryShop)) == "" && Truthy(session.connectedShop) ==>
              StartedHandshake(r, cfg, session, session.connectedShop.value, cfg.appUrl, state)
    ensures Trim(OrEmpty(queryShop)) == "" && !Truthy(session.connectedShop) ==>
              r == Initiation(ConnectForm, session)
  {
    var fromQuery := Trim(OrEmpty(queryShop));
    if fromQuery != "" then BeginHandshake(cfg, session, fromQuery, cfg.appUrl, state)
    else if Truthy(session.connectedShop) then
      BeginHandshake(cfg, session, session.connectedShop.value, cfg.appUrl, state)
    else Initiation(ConnectForm, session)
  }

  /** `POST /auth/shopify/start`: a missing or blank `shop` field is a 400
      that leaves the session alone; otherwise the handshake starts for the
      trimmed shop with a callback address built from HOST. */
  function InitiatePost(cfg: Config, session: Session, bodyShop: Option<string>, state: string): (r: Initiation)
    requires IsStateToken(state)
    ensures Trim(OrEmpty(bodyShop)) == "" ==> r == Initiation(Text(400, "Missing shop domain"), session)
    ensures Trim(OrEmpty(bodyShop)) != "" ==>
              StartedHandshake(r, cfg, session, Trim(OrEmpty(bodyShop)), cfg.host, state)
  {
    var shop := Trim(OrEmpty(bodyShop));
    if shop == "" then Initiation(Text(400, "Missing shop domain"), session)
    else BeginHandshake(cfg, session, shop, cfg.host, state)
  }

  /** What the token endpoint produced: an exception (network failure,
      unreadable body), or a JSON body with its `access_token` and `scope`. */
  datatype ExchangeReply =
    | Threw
    | Body(accessToken: Option<string>, scope: Option<string>)

  /** The request sent to exchange the code: the shop's token endpoint and
      the JSON body's three fields. */
  datatype ExchangeRequest = ExchangeRequest(url: string, clientId: string, clientSecret: string, code: string)

  /** The outcome of one callback: the reply, the new session and store,
      and the token request made, if one was made. */
  datatype CallbackResult = CallbackResult(
    response: Response,
    session: Session,
    store: Store,
    exchange: Option<ExchangeRequest>)

  /** `shop`, `code` and `state` are all present and non-empty. */
  predicate ParamsPresent(q: Query) {
    Truthy(Lookup(q, "shop")) && Truthy(Lookup(q, "code")) && Truthy(Lookup(q, "state"))
  }

  /** The session holds a pending pair equal to the query's state and shop. */
  predicate StateMatches(session: Session, q: Query) {
    && Truthy(session.oauthState) && session.oauthState == Lookup(q, "state")
    && Truthy(session.oauthShop) && session.oauthShop == Lookup(q, "shop")
  }

  /** All three checks of the callback pass. */
  predicate Accepted(cfg: Config, mac: MacFn, session: Session, q: Query) {
    ParamsPresent(q) && StateMatches(session, q) && VerifyHmac(q, cfg.apiSecret, mac)
  }

  /** The token endpoint's body carries a usable `access_token`. */
  predicate Granted(reply: ExchangeReply) {
    reply.Body? && Truthy(reply.accessToken)
  }

  /** The code exchange: posted over `https`, carrying the app's credentials
      and the code. When the shop name holds no '/', the text between
      `https://` and the first '/' is exactly the shop, and what follows
      that '/' is `admin/oauth/access_token`. */
  function TokenRequest(cfg: Config, shop: string, code: string): (r: ExchangeRequest)
    ensures r.clientId == cfg.apiKey && r.clientSecret == cfg.apiSecret && r.code == code
    ensures |r.url| >= 8 && r.url[..8] == "https://"
    ensures '/' !in shop ==> CutAt(r.url[8..], '/') == (shop, Some("admin/oauth/access_token"))
  {
    var url := "https://" + shop + "/admin/oauth/access_token";
    var path := "admin/oauth/access_token";
    assert url[8..] == shop + ['/'] + path by {
      assert "/admin/oauth/access_token" == ['/'] + path;
      ConcatAssoc("https://", shop, ['/'] + path);
      ConcatAssoc(shop, ['/'], path);
    }
    HostBeforePath(shop, "admin/oauth/access_token");
    ExchangeRequest(url, cfg.apiKey, cfg.apiSecret, code)
  }

  lemma HostBeforePath(host: string, path: string)
    ensures '/' !in host ==> CutAt(host + ['/'] + path, '/') == (host, Some(path))
  {
    if '/' !in host {
      CutAtFirst(host, '/', path);
    }
  }

  const DashboardPage: string := "/dashboard.html?"

  /** Where a successful callback sends the browser: the dashboard page,
      whose query reads back as exactly the shop name and `connected=1`,
      whatever characters the shop name holds. */
  function DashboardUrl(shop: string): (r: string)
    ensures |DashboardPage| <= |r| && r[..|DashboardPage|] == DashboardPage
    ensures ParseParams(r[|DashboardPage|..]) == Some([("shop", shop), ("connected", "1")])
  {
    var e := PercentEncode(UriComponent, shop);
    var r := "/dashboard.html?shop=" + e + "&connected=1";
    var query := ("shop" + "=" + e) + "&" + ("connected" + "=" + "1");
    DashboardUrlShape(e);
    DashboardQueryReadsBack(shop);
    assert r[|DashboardPage|..] == query;
    r
  }

  /** The dashboard address is the page followed by its two-piece query. */
  lemma DashboardUrlShape(e: string)
    ensures "/dashboard.html?shop=" + e + "&connected=1"
            == DashboardPage + (("shop" + "=" + e) + "&" + ("connected" + "=" + "1"))
  {
    var pre, p1, p2 := "shop" + "=", "shop" + "=" + e, "connected" + "=" + "1";
    assert "/dashboard.html?shop=" == DashboardPage + pre;
    assert "&connected=1" == "&" + p2;
    ConcatAssoc(DashboardPage, pre, e);
    ConcatAssoc(DashboardPage, p1, "&" + p2);
    ConcatAssoc(p1, "&", p2);
  }

  lemma DashboardQueryReadsBack(shop: string)
    ensures ParseParams(("shop" + "=" + PercentEncode(UriComponent, shop)) + "&" + ("connected" + "=" + "1"))
            == Some([("shop", shop), ("connected", "1")])
  {
    var p1 := "shop" + "=" + PercentEncode(UriComponent, shop);
    var p2 := "connected" + "=" + "1";
    ParseUriPair("shop", shop);
    ConnectedPair();
    ParseTwoPieces(p1, p2, ("shop", shop), ("connected", "1"));
  }

  lemma ConnectedPair()
    ensures '&' !in "connected" + "=" + "1"
    ensures ParsePair("connected" + "=" + "1") == Some(("connected", "1"))
  {
    UriComponentKeepsDomain("1");
    ParseUriPair("connected", "1");
  }

  /** A rejected callback: nothing in the session or the store changes. */
  function Reject(status: int, body: string, session: Session, store: Store,
                  exchange: Option<ExchangeRequest>): CallbackResult {
    CallbackResult(Text(status, body), session, store, exchange)
  }

  /** `GET /auth/shopify/callback`. The checks run in this order and the
      first that fails decides the 400 reply: the three parameters are
      present; the session's pending pair matches them; the `hmac`
      verifies. Only then is the code exchanged. The token is stored, and
      the pending pair replaced by the connected shop, only when the reply
      carries an `access_token`; every other path leaves the session and
      the store as they were. `reply` is what the token endpoint returns and
      `now` the database clock. */
  function Callback(cfg: Config, mac: MacFn, session: Session, store: Store, q: Query,
                    reply: ExchangeReply, now: string): (r: CallbackResult)
    ensures !ParamsPresent(q) ==>
              r == Reject(400, "Missing required query params", session, store, None)
    ensures ParamsPresent(q) && !StateMatches(session, q) ==>
              r == Reject(400, "Invalid state or session mismatch", session, store, None)
    ensures ParamsPresent(q) && StateMatches(session, q) && !VerifyHmac(q, cfg.apiSecret, mac) ==>
              r == Reject(400, "HMAC validation failed", session, store, None)
    ensures r.exchange.Some? <==> Accepted(cfg, mac, session, q)
    ensures r.exchange.Some? ==>
              r.exchange.value == TokenRequest(cfg, Lookup(q, "shop").value, Lookup(q, "code").value)
    ensures Accepted(cfg, mac, session, q) && reply.Threw? ==>
              r.response == Text(500, "OAuth exchange failed")
    ensures Accepted(cfg, mac, session, q) && reply.Body? && !Truthy(reply.accessToken) ==>
              r.response == Text(500, "Failed to get access token")
    ensures !(Accepted(cfg, mac, session, q) && Granted(reply)) ==>
              r.session == session && r.store == store && !r.response.Redirect?
    ensures Accepted(cfg, mac, session, q) && Granted(reply) ==>
              var shop := Lookup(q, "shop").value;
              && r.store == StoreToken(store, shop, reply.accessToken.value,
                                       Some(if Truthy(reply.scope) then reply.scope.value else cfg.scopes), now)
              && r.session == Session(None, None, Some(shop))
              && r.response == Redirect(302, DashboardUrl(shop))
  {
    var shop, code, state := Lookup(q, "shop"), Lookup(q, "code"), Lookup(q, "state");
    if !Truthy(shop) || !Truthy(code) || !Truthy(state) then
      Reject(400, "Missing required query params", session, store, None)
    else if !Truthy(session.oauthState) || session.oauthState.value != state.value
         || !Truthy(session.oauthShop) || session.oauthShop.value != shop.value then
      Reject(400, "Invalid state or session mismatch", session, store, None)
    else if !VerifyHmac(q, cfg.apiSecret, mac) then
      Reject(400, "HMAC validation failed", session, store, None)
    else
      var request := Some(TokenRequest(cfg, shop.value, code.value));
      match reply
      case Threw => Reject(500, "OAuth exchange failed", session, store, request)
      case Body(token, scope) =>
        if !Truthy(token) then Reject(500, "Failed to get access token", session, store, request)
        else
          var stored := StoreToken(store, shop.value, token.value,
                                   Some(if Truthy(scope) then scope.value else cfg.scopes), now);
          CallbackResult(Redirect(302, DashboardUrl(shop.value)),
                         session.(oauthState := None, oauthShop := None, connectedShop := shop),
                         stored, request)
  }
}

=== FILE: options.dfy ===
/** Optional values: JavaScript's `undefined`/`null` next to a present value. */
module Options {

  datatype Option<+T> = None | Some(value: T) {

    /** `x ?? fallback`: what is present, else the fallback. */
    function GetOr(fallback: T): T {
      if Some? then value else fallback
    }
  }
}

=== FILE: tokenstore.dfy ===
/** The `tokens` table: one row per shop, written by `storeToken` with an
    insert-or-update on the shop key, read by `getToken`, and listed by
    `GET /api/shops` without the token column. */
module TokenStore {
  import opened Options
  import opened JsString

  /** One row of the table; `scope` is SQL NULL when the caller passed a
      falsy scope. `installedAt` is the database clock at write time. */
  datatype TokenRow = TokenRow(accessToken: string, scope: Option<string>, installedAt: string)

  type Store = map<string, TokenRow>

  /** What `GET /api/shops` returns per row: `shop` and `installed_at` only. */
  datatype Listing = Listing(shop: string, installedAt: string)

  /** `storeToken(shop, accessToken, scope)` at database time `now`: inserts
      the row or, when the shop already has one, replaces its token, scope
      and install time. Every other shop's row is left as it was. */
  function StoreToken(store: Store, shop: string, accessToken: string, scope: Option<string>, now: string): (r: Store)
    ensures r.Keys == store.Keys + {shop}
    ensures r[shop].accessToken == accessToken && r[shop].installedAt == now
    ensures r[shop].scope == (if Truthy(scope) then scope else None)
    ensures forall s :: s in store && s != shop ==> r[s] == store[s]
  {
    store[shop := TokenRow(accessToken, if Truthy(scope) then scope else None, now)]
  }

  /** `getToken(shop)`: the stored token, or `None` (null) for a shop
      without a row. */
  function GetToken(store: Store, shop: string): (r: Option<string>)
    ensures r.None? <==> shop !in store
    ensures r.Some? ==> r.value == store[shop].accessToken
  {
    if shop in store then Some(store[shop].accessToken) else None
  }

  /** `SELECT shop, installed_at FROM tokens`: the row order is unspecified,
      so the listing is a set. */
  function ListShops(store: Store): (r: set<Listing>)
    ensures forall l :: l in r <==> l.shop in store && store[l.shop].installedAt == l.installedAt
  {
    set s | s in store :: Listing(s, store[s].installedAt)
  }

  /** A token written for a shop is what a later lookup returns. */
  lemma GetAfterStore(store: Store, shop: string, accessToken: string, scope: Option<string>, now: string)
    ensures GetToken(StoreToken(store, shop, accessToken, scope, now), shop) == Some(accessToken)
  {
  }

  /** Writing one shop's token does not change what any other shop's lookup
      returns. */
  lemma StoreLeavesOthers(store: Store, shop: string, other: string, accessToken: string, scope: Option<string>, now: string)
    requires other != shop
    ensures GetToken(StoreToken(store, shop, accessToken, scope, now), other) == GetToken(store, other)
  {
  }

  /** Writing the same row twice is the same as writing it once. */
  lemma StoreIdempotent(store: Store, shop: string, accessToken: string, scope: Option<string>, now: string)
    ensures var once := StoreToken(store, shop, accessToken, scope, now);
            StoreToken(once, shop, accessToken, scope, now) == once
  {
  }

  /** A later write for the same shop wins over an earlier one. */
  lemma LastWriteWins(store: Store, shop: string, t1: string, s1: Option<string>, n1: string,
                      t2: string, s2: Option<string>, n2: string)
    ensures StoreToken(StoreToken(store, shop, t1, s1, n1), shop, t2, s2, n2)
            == StoreToken(store, shop, t2, s2, n2)
  {
  }

  /** The listing never depends on the tokens or scopes stored: two stores
      with the same shops and install times list identically. */
  lemma ListingHidesTokens(a: Store, b: Store)
    requires a.Keys == b.Keys
    requires forall s :: s in a ==> a[s].installedAt == b[s].installedAt
    ensures ListShops(a) == ListShops(b)
  {
  }
}

=== FILE: urlencode.dfy ===
/** Percent-encoding as the handshake uses it: the serializer behind
    `URLSearchParams.toString()` (the application/x-www-form-urlencoded
    serializer of the WHATWG URL Standard) for the authorize URL, and
    `encodeURIComponent` for the dashboard redirect. Decoding is the
    partner that shows the encoders lose nothing. */
module UrlEncoding {
  import opened Options
  import opened Utf8
  import opened JsString

  datatype Flavor =
    | FormUrlEncoded  // URLSearchParams: space becomes '+'
    | UriComponent    // encodeURIComponent: space becomes "%20"

  predicate IsAsciiAlphanumeric(b: Byte) {
    (0x30 <= b <= 0x39) || (0x41 <= b <= 0x5A) || (0x61 <= b <= 0x7A)
  }

  /** The bytes each encoder copies through unchanged:
      `*-._` for the form serializer, `-_.!~*'()` for encodeURIComponent. */
  predicate KeptAsIs(f: Flavor, b: Byte) {
    || IsAsciiAlphanumeric(b)
    || b == 0x2A || b == 0x2D || b == 0x2E || b == 0x5F
    || (f == UriComponent && (b == 0x21 || b == 0x7E || b == 0x27 || b == 0x28 || b == 0x29))
  }

  const HexDigits: string := "0123456789ABCDEF"

  /** The value of a hexadecimal digit character of either case. */
  function HexValue(c: char): Option<nat> {
    if '0' <= c <= '9' then Some(c as int - '0' as int)
    else if 'A' <= c <= 'F' then Some(c as int - 'A' as int + 10)
    else if 'a' <= c <= 'f' then Some(c as int - 'a' as int + 10)
    else None
  }

  /** The encoding of one byte: itself, '+' for a space in the form
      serializer, otherwise '%' and two upper-case hexadecimal digits. */
  function EncodeByte(f: Flavor, b: Byte): (r: string)
    ensures forall i :: 0 <= i < |r| ==> r[i] != '&' && r[i] != '='
  {
    if KeptAsIs(f, b) then [b as char]
    else if f == FormUrlEncoded && b == 0x20 then "+"
    else ['%', HexDigits[b / 16], HexDigits[b % 16]]
  }

  function EncodeBytes(f: Flavor, bs: seq<Byte>): (r: string)
    ensures forall i :: 0 <= i < |r| ==> r[i] != '&' && r[i] != '='
  {
    if |bs| == 0 then "" else EncodeByte(f, bs[0]) + EncodeBytes(f, bs[1..])
  }

  /** Percent-encodes the UTF-8 bytes of `s`. The result never contains
      '&' or '=', so it can sit inside a query string unambiguously. */
  function PercentEncode(f: Flavor, s: string): (r: string)
    ensures '&' !in r && '=' !in r
  {
    EncodeBytes(f, Encode(s))
  }

  /** Reads percent-encoded text back into bytes: '+' is a space, "%XY" is
      the byte XY, any other ASCII character stands for itself. */
  function DecodeBytes(s: string): Option<seq<Byte>>
    decreases |s|
  {
    if |s| == 0 then Some([])
    else if s[0] == '+' then
      match DecodeBytes(s[1..])
      case None => None
      case Some(rest) => Some([0x20] + rest)
    else if s[0] == '%' then
      if |s| < 3 || HexValue(s[1]).None? || HexValue(s[2]).None? then None
      else
        match DecodeBytes(s[3..])
        case None => None
        case Some(rest) => Some([HexValue(s[1]).value * 16 + HexValue(s[2]).value] + rest)
    else if s[0] as int < 0x80 then
      match DecodeBytes(s[1..])
      case None => None
      case Some(rest) => Some([s[0] as int] + rest)
    else None
  }

  function PercentDecode(s: string): Option<string> {
    match DecodeBytes(s)
    case None => None
    case Some(bs) => Decode(bs)
  }

  lemma DecodeEncodeByte(f: Flavor, b: Byte, rest: string)
    ensures DecodeBytes(EncodeByte(f, b) + rest) ==
            match DecodeBytes(rest)
            case None => None
            case Some(r) => Some([b] + r)
  {
    var e := EncodeByte(f, b);
    var s := e + rest;
    if KeptAsIs(f, b) {
      assert s[1..] == rest;
    } else if f == FormUrlEncoded && b == 0x20 {
      assert s[1..] == rest;
    } else {
      assert s[3..] == rest;
      assert HexValue(HexDigits[b / 16]) == Some(b / 16);
      assert HexValue(HexDigits[b % 16]) == Some(b % 16);
    }
  }

  lemma {:induction false} DecodeEncodeBytes(f: Flavor, bs: seq<Byte>)
    ensures DecodeBytes(EncodeBytes(f, bs)) == Some(bs)
    decreases |bs|
  {
    if |bs| > 0 {
      DecodeEncodeBytes(f, bs[1..]);
      DecodeEncodeByte(f, bs[0], EncodeBytes(f, bs[1..]));
      assert bs == [bs[0]] + bs[1..];
    }
  }

  /** Percent-decoding undoes percent-encoding, for both encoders. */
  lemma PercentRoundTrip(f: Flavor, s: string)
    ensures PercentDecode(PercentEncode(f, s)) == Some(s)
  {
    DecodeEncodeBytes(f, Encode(s));
    DecodeEncode(s);
  }

  /** `new URLSearchParams(pairs).toString()`: each pair as `name=value`,
      both encoded, joined with '&'. */
  function SerializeParams(ps: seq<(string, string)>): (r: string)
    ensures |ps| == 0 ==> r == ""
    ensures |ps| > 0 ==> ParseParams(r) == Some(ps)
  {
    ParseJoinedPairs(ps);
    Join(EncodedPairs(ps), '&')
  }

  function EncodedPairs(ps: seq<(string, string)>): (r: seq<string>)
    ensures |r| == |ps|
    ensures forall i :: 0 <= i < |r| ==>
              r[i] == PercentEncode(FormUrlEncoded, ps[i].0) + "=" + PercentEncode(FormUrlEncoded, ps[i].1)
  {
    if |ps| == 0 then []
    else [PercentEncode(FormUrlEncoded, ps[0].0) + "=" + PercentEncode(FormUrlEncoded, ps[0].1)]
         + EncodedPairs(ps[1..])
  }

  /** Cuts `s` at its first `c`: the text before it and, when `c` occurs,
      the text after it. */
  function CutAt(s: string, c: char): (r: (string, Option<string>))
    ensures c !in s ==> r == (s, None)
    decreases |s|
  {
    if |s| == 0 then (s, None)
    else if s[0] == c then ("", Some(s[1..]))
    else
      var (a, b) := CutAt(s[1..], c);
      assert c !in s ==> c !in s[1..] && s == [s[0]] + s[1..];
      ([s[0]] + a, b)
  }

  lemma {:induction false} CutAtFirst(a: string, c: char, b: string)
    requires c !in a
    ensures CutAt(a + [c] + b, c) == (a, Some(b))
    decreases |a|
  {
    if |a| == 0 {
      assert a + [c] + b == [c] + b;
    } else {
      assert (a + [c] + b)[1..] == a[1..] + [c] + b;
      CutAtFirst(a[1..], c, b);
      assert a == [a[0]] + a[1..];
    }
  }

  /** Reads one `name=value` piece of a query string. */
  function ParsePair(piece: string): Option<(string, string)> {
    var (n, v) := CutAt(piece, '=');
    var name := PercentDecode(n);
    var value := PercentDecode(v.GetOr(""));
    if name.Some? && value.Some? then Some((name.value, value.value)) else None
  }

  function ParsePieces(pieces: seq<string>): Option<seq<(string, string)>> {
    if |pieces| == 0 then Some([])
    else match (ParsePair(pieces[0]), ParsePieces(pieces[1..]))
      case (Some(p), Some(rest)) => Some([p] + rest)
      case _ => None
  }

  /** Reads a query string back into its name/value pairs. */
  function ParseParams(s: string): Option<seq<(string, string)>> {
    ParsePieces(Split(s, '&'))
  }

  lemma ParsePairEncoded(p: (string, string))
    ensures ParsePair(PercentEncode(FormUrlEncoded, p.0) + "=" + PercentEncode(FormUrlEncoded, p.1)) == Some(p)
  {
    var n := PercentEncode(FormUrlEncoded, p.0);
    var v := PercentEncode(FormUrlEncoded, p.1);
    assert n + "=" + v == n + ['='] + v;
    CutAtFirst(n, '=', v);
    PercentRoundTrip(FormUrlEncoded, p.0);
    PercentRoundTrip(FormUrlEncoded, p.1);
  }

  lemma {:induction false} ParseEncodedPairs(ps: seq<(string, string)>)
    ensures ParsePieces(EncodedPairs(ps)) == Some(ps)
    decreases |ps|
  {
    if |ps| > 0 {
      var pieces := EncodedPairs(ps);
      var head := PercentEncode(FormUrlEncoded, ps[0].0) + "=" + PercentEncode(FormUrlEncoded, ps[0].1);
      EncodedPairsCons(ps);
      assert pieces[0] == head && pieces[1..] == EncodedPairs(ps[1..]);
      assert ParsePair(pieces[0]) == Some(ps[0]) by { ParsePairEncoded(ps[0]); }
      assert ParsePieces(pieces[1..]) == Some(ps[1..]) by { ParseEncodedPairs(ps[1..]); }
      ParsePiecesCons(pieces, ps[0], ps[1..]);
      assert ps == [ps[0]] + ps[1..];
    }
  }

  lemma EncodedPairsCons(ps: seq<(string, string)>)
    requires |ps| > 0
    ensures EncodedPairs(ps)
            == [PercentEncode(FormUrlEncoded, ps[0].0) + "=" + PercentEncode(FormUrlEncoded, ps[0].1)]
               + EncodedPairs(ps[1..])
  {
  }

  lemma ParsePiecesCons(pieces: seq<string>, p: (string, string), rest: seq<(string, string)>)
    requires |pieces| > 0 && ParsePair(pieces[0]) == Some(p) && ParsePieces(pieces[1..]) == Some(rest)
    ensures ParsePieces(pieces) == Some([p] + rest)
  {
  }

  /** Parsing the joined, encoded pairs of a non-empty parameter list gives
      back exactly the pairs, in order. */
  lemma ParseJoinedPairs(ps: seq<(string, string)>)
    ensures |ps| > 0 ==> ParseParams(Join(EncodedPairs(ps), '&')) == Some(ps)
  {
    if |ps| > 0 {
      var pieces := EncodedPairs(ps);
      forall i | 0 <= i < |pieces| ensures '&' !in pieces[i] {
        assert '&' !in PercentEncode(FormUrlEncoded, ps[i].0);
        assert '&' !in PercentEncode(FormUrlEncoded, ps[i].1);
      }
      SplitJoin(pieces, '&');
      ParseEncodedPairs(ps);
    }
  }

  /** Characters encodeURIComponent leaves alone and that fit in a shop
      domain: ASCII letters, digits, '-' and '.'. */
  predicate IsDomainChar(c: char) {
    ('a' <= c <= 'z') || ('A' <= c <= 'Z') || ('0' <= c <= '9') || c == '-' || c == '.'
  }

  /** encodeURIComponent leaves a plain domain name as it is. */
  lemma {:induction false} UriComponentKeepsDomain(s: string)
    requires forall i :: 0 <= i < |s| ==> IsDomainChar(s[i])
    ensures PercentEncode(UriComponent, s) == s
    decreases |s|
  {
    if |s| > 0 {
      UriComponentKeepsDomain(s[1..]);
      DomainCharKept(s[0]);
      var e := Encode(s);
      assert e == [s[0] as int] + Encode(s[1..]);
      assert e[1..] == Encode(s[1..]);
      assert EncodeBytes(UriComponent, e) == [s[0]] + EncodeBytes(UriComponent, e[1..]);
      assert s == [s[0]] + s[1..];
    }
  }

  lemma DomainCharKept(c: char)
    requires IsDomainChar(c)
    ensures EncodeChar(c) == [c as int] && EncodeByte(UriComponent, c as int) == [c]
  {
  }

  /** A `name=value` piece whose name is a plain domain-like word and whose
      value went through encodeURIComponent reads back as that pair. */
  lemma ParseUriPair(n: string, v: string)
    requires forall i :: 0 <= i < |n| ==> IsDomainChar(n[i])
    ensures '&' !in n + "=" + PercentEncode(UriComponent, v)
    ensures ParsePair(n + "=" + PercentEncode(UriComponent, v)) == Some((n, v))
  {
    var e := PercentEncode(UriComponent, v);
    assert '=' !in n && '&' !in n by {
      forall i | 0 <= i < |n| ensures n[i] != '=' && n[i] != '&' {
        assert IsDomainChar(n[i]);
      }
    }
    assert n + "=" + e == n + ['='] + e;
    CutAtFirst(n, '=', e);
    UriComponentKeepsDomain(n);
    PercentRoundTrip(UriComponent, n);
    PercentRoundTrip(UriComponent, v);
  }

  /** Two '&'-free pieces joined with '&' read back as their two pairs. */
  lemma ParseTwoPieces(p1: string, p2: string, a: (string, string), b: (string, string))
    requires '&' !in p1 && '&' !in p2
    requires ParsePair(p1) == Some(a) && ParsePair(p2) == Some(b)
    ensures ParseParams(p1 + "&" + p2) == Some([a, b])
  {
    var pieces := [p1, p2];
    assert pieces[1..] == [p2];
    assert [p2][1..] == [];
    assert Join(pieces, '&') == p1 + "&" + p2;
    SplitJoin(pieces, '&');
    ParsePiecesCons([p2], b, []);
    assert [b] + [] == [b];
    ParsePiecesCons(pieces, a, [b]);
    assert [a] + [b] == [a, b];
  }
}

=== FILE: utf8.dfy ===
/** UTF-8, as `Buffer.from(s, 'utf8')` and the URL encoders apply it to a
    string. Decoding is the partner that shows no information is lost. */
module Utf8 {
  import opened Options

  type Byte = b: int | 0 <= b < 256

  /** True of the integers that are Unicode scalar values, which is what a
      `char` holds. */
  predicate IsScalar(n: int) {
    (0 <= n < 0xD800) || (0xE000 <= n < 0x11_0000)
  }

  predicate IsContinuation(b: Byte) {
    0x80 <= b < 0xC0
  }

  /** The one to four bytes that encode one character. */
  function EncodeChar(c: char): (r: seq<Byte>)
    ensures 1 <= |r| <= 4
    ensures |r| == 1 <==> c as int < 0x80
    ensures forall i :: 1 <= i < |r| ==> IsContinuation(r[i])
  {
    var n := c as int;
    if n < 0x80 then [n]
    else if n < 0x800 then [0xC0 + n / 64, 0x80 + n % 64]
    else if n < 0x1_0000 then [0xE0 + n / 64 / 64, 0x80 + n / 64 % 64, 0x80 + n % 64]
    else [0xF0 + n / 64 / 64 / 64, 0x80 + n / 64 / 64 % 64, 0x80 + n / 64 % 64, 0x80 + n % 64]
  }

  /** The UTF-8 encoding of a whole string. */
  function Encode(s: string): (r: seq<Byte>)
    ensures |r| >= |s|
    ensures |s| > 0 ==> r == EncodeChar(s[0]) + Encode(s[1..])
  {
    if |s| == 0 then [] else EncodeChar(s[0]) + Encode(s[1..])
  }

  /** How many bytes the sequence starting with lead byte `b` occupies, or 0
      for a byte that cannot start a sequence. */
  function SequenceLength(b: Byte): nat {
    if b < 0x80 then 1
    else if 0xC0 <= b < 0xE0 then 2
    else if 0xE0 <= b < 0xF0 then 3
    else if 0xF0 <= b < 0xF8 then 4
    else 0
  }

  /** The code point carried by a lead byte and its continuation bytes. */
  function CodePoint(bs: seq<Byte>): int
    requires 1 <= |bs| <= 4
  {
    var b0: int := bs[0];
    if |bs| == 1 then b0
    else
      var b1: int := bs[1];
      if |bs| == 2 then (b0 - 0xC0) * 64 + (b1 - 0x80)
      else
        var b2: int := bs[2];
        if |bs| == 3 then ((b0 - 0xE0) * 64 + (b1 - 0x80)) * 64 + (b2 - 0x80)
        else
          var b3: int := bs[3];
          (((b0 - 0xF0) * 64 + (b1 - 0x80)) * 64 + (b2 - 0x80)) * 64 + (b3 - 0x80)
  }

  /** The lead byte of an encoded character announces its length, and its
      bytes carry its code point. */
  lemma EncodeCharShape(c: char)
    ensures SequenceLength(EncodeChar(c)[0]) == |EncodeChar(c)|
    ensures CodePoint(EncodeChar(c)) == c as int
  {
    var n := c as int;
    if n < 0x80 {
    } else if n < 0x800 {
      TwoByteShape(c);
    } else if n < 0x1_0000 {
      ThreeByteShape(c);
    } else {
      FourByteShape(c);
    }
  }

  lemma TwoByteShape(c: char)
    requires 0x80 <= c as int < 0x800
    ensures SequenceLength(EncodeChar(c)[0]) == 2
    ensures CodePoint(EncodeChar(c)) == c as int
  {
    var n := c as int;
    assert n == n / 64 * 64 + n % 64;
  }

  lemma ThreeByteShape(c: char)
    requires 0x800 <= c as int < 0x1_0000
    ensures SequenceLength(EncodeChar(c)[0]) == 3
    ensures CodePoint(EncodeChar(c)) == c as int
  {
    var n := c as int;
    var m := n / 64;
    assert n == m * 64 + n % 64;
    assert m == m / 64 * 64 + m % 64;
  }

  lemma FourByteShape(c: char)
    requires 0x1_0000 <= c as int
    ensures SequenceLength(EncodeChar(c)[0]) == 4
    ensures CodePoint(EncodeChar(c)) == c as int
  {
    var n := c as int;
    var m := n / 64;
    var k := m / 64;
    assert n == m * 64 + n % 64;
    assert m == k * 64 + m % 64;
    assert k == k / 64 * 64 + k % 64;
  }

  /** Reads one character off the front of `bs`, with the number of bytes it
      took; `None` when the bytes are not a well-formed sequence. */
  function DecodeChar(bs: seq<Byte>): (r: Option<(char, nat)>)
    ensures r.Some? ==> 1 <= r.value.1 <= |bs|
  {
    if |bs| == 0 then None
    else
      var n := SequenceLength(bs[0]);
      if n == 0 || n > |bs| then None
      else if exists i :: 1 <= i < n && !IsContinuation(bs[i]) then None
      else
        var cp := CodePoint(bs[..n]);
        if IsScalar(cp) then Some((cp as char, n)) else None
  }

  /** Decodes a whole byte sequence; `None` when it is not well-formed. */
  function Decode(bs: seq<Byte>): Option<string>
    decreases |bs|
  {
    if |bs| == 0 then Some("")
    else match DecodeChar(bs)
      case None => None
      case Some((c, n)) =>
        match Decode(bs[n..])
        case None => None
        case Some(rest) => Some([c] + rest)
  }

  /** Decoding the encoding of one character gives it back, with its length. */
  lemma DecodeEncodeChar(c: char, rest: seq<Byte>)
    ensures DecodeChar(EncodeChar(c) + rest) == Some((c, |EncodeChar(c)|))
  {
    var e := EncodeChar(c);
    var bs := e + rest;
    EncodeCharShape(c);
    assert bs[0] == e[0];
    assert bs[..|e|] == e;
    assert forall i :: 1 <= i < |e| ==> bs[i] == e[i];
  }

  /** Decoding undoes encoding. */
  lemma {:induction false} DecodeEncode(s: string)
    ensures Decode(Encode(s)) == Some(s)
    decreases |s|
  {
    if |s| > 0 {
      var e := EncodeChar(s[0]);
      DecodeEncodeChar(s[0], Encode(s[1..]));
      assert (e + Encode(s[1..]))[|e|..] == Encode(s[1..]);
      DecodeEncode(s[1..]);
      assert s == [s[0]] + s[1..];
    }
  }

  /** Different strings have different encodings. */
  lemma EncodeInjective(a: string, b: string)
    requires Encode(a) == Encode(b)
    ensures a == b
  {
    DecodeEncode(a);
    DecodeEncode(b);
  }
}
